=== FILE: README.md ===
# Warehouse inventory app: a verified model of its sequential core

This project models the sequential logic of an Android warehouse-inventory app in Dafny, and proves properties of that model. The app drives a handheld scanner through the vendor's SDK. Three pieces are modelled:

- **Device configuration screen** (`ConfigurationActivity.kt`):
  - the depth-first flattening of the vendor's property tree;
  - the rule that decides which properties get an input widget, and what that widget first shows;
  - the insertion-ordered property-to-widget map;
  - the apply pass, which walks that map, calls `set` per property kind, and calls `commit()` once on success;
  - the blob-management guard.
- **Inventory screen** (`MainActivity.kt`): a list of items keyed by barcode, plus a pending action (NONE / ADD / REMOVE / UPDATE). The action is chosen with buttons and consumed by the next scan.
- **Keyboard screen** (`KeyboardActivity.kt`):
  - the SharedPreferences key and default table behind saving and `loadSettings`;
  - the parse-with-default numeric fields;
  - `getScanCodeValue`;
  - the command each remapping path issues: `applyKeyRemapping`, the three map dialogs, `configurePTT`, reset, delete and lock.

Vendor and Android calls are modelled as data:

- Configuration calls (`Property.set`, `ConfigurationManager.commit`) are recorded as a trace of events. The device answers each call through an oracle (`ConfigApply.Device`). The oracle sees the whole call history, so it may accept, raise a `ConfigException` with a message, or raise any other exception.
- Keyboard and power-manager calls are recorded as a list of `KeyboardRemap.Command`.
- Two lookups are function parameters: resolving a key-code name (reflection over `KeyEvent`) and a package's launch intent (`PackageManager`).
- SharedPreferences is a finite map from key to a typed value. A typed getter that finds a value of another type fails with a ClassCast error, as Android's getters throw `ClassCastException`.

Kotlin behaviour the model writes out explicitly (`KotlinText`):

- `String.toIntOrNull()`: optional sign, a lone sign rejected, digits, 32-bit range.
- `Int.toString()`, and the round trip between the two.
- `String.trim()`, with Kotlin's `Char.isWhitespace` set.
- `List.indexOf`, which returns -1 when the element is absent.

## Modules

| file | module | what |
|---|---|---|
| basics.dfy | Basics | `Option`, `Result` |
| kotlin_text.dfy | KotlinText | `toIntOrNull`, `toString`, `trim`, `indexOf` |
| config_tree.dfy | ConfigTree | properties, groups, `getAllProperties` |
| config_edit.dfy | ConfigEdit | widget creation, edit filter, property-to-view map, blob guard |
| config_apply.dfy | ConfigApply | the apply pass as a method, its reference definition, its guarantees |
| inventory.dfy | Inventory | items, actions, add / remove / update, the scan state machine |
| keyboard_settings.dfy | KeyboardSettings | key and default table, typed reads and writes, field handlers, `loadSettings` |
| keyboard_remap.dfy | KeyboardRemap | scan codes, remap dispatch, dialogs, `configurePTT`, reset / delete / lock |

## What the apply pass does and does not do

- **No rollback.** `set` is called entry by entry, and there is no undo. An unparsable numeric field returns from the pass at once (`ConfigurationActivity.kt:263-268`), and every earlier `set` stays made but uncommitted. A call that throws part-way has the same effect. `ConfigApply.InvalidNumberKeepsEarlierSets` states this.
- **A selected enum constant is never set.** The enum branch casts the chosen constant `as Nothing?` (`ConfigurationActivity.kt:256`). On the JVM that is a cast to `java.lang.Void`, which every enum constant fails. So the `ClassCastException` leaves the loop before `set` is called, and the generic handler (`:296-298`) reports an unexpected error. Any enum entry with constants and a selected position therefore ends the pass without `commit()`. `ConfigApply.StepOf` and `ConfigApply.EnumSelectionPreventsCommit` state this.
- **One command path.** The only way a configuration reaches the device is the direct `commit()` at `ConfigurationActivity.kt:291`. The broadcast receiver only posts a notification.

## Model

| member | source | states |
|---|---|---|
| ConfigTree.FlattenLength | app/src/main/java/com/example/warehouseinventoryapp/ConfigurationActivity.kt:96-110 | the flattened list is exactly as long as the number of properties declared anywhere in the tree (own count plus the children's counts); recursion terminates on the finite tree |
| ConfigTree.FlattenMembers | app/src/main/java/com/example/warehouseinventoryapp/ConfigurationActivity.kt:96-110 | a property is in the flattened list iff it is declared in the group or below one of its child groups |
| ConfigTree.FlattenOrder | app/src/main/java/com/example/warehouseinventoryapp/ConfigurationActivity.kt:101-107 | the list starts with the group's own properties in declared order, and child group i contributes its whole flattening as one contiguous run after the own properties and all earlier children |
| KotlinText.IndexOf | app/src/main/java/com/example/warehouseinventoryapp/ConfigurationActivity.kt:188 | `indexOf` returns the first position holding the element, and -1 exactly when it is absent |
| ConfigEdit.InitialSelection | app/src/main/java/com/example/warehouseinventoryapp/ConfigurationActivity.kt:186-191 | an enum's spinner starts on the position of the current value when the constants contain it, and otherwise stays on the spinner's default (the first item, or none for an empty list) |
| ConfigEdit.CreateWidget | app/src/main/java/com/example/warehouseinventoryapp/ConfigurationActivity.kt:163-234 | no widget exactly for an enum whose constants are null or an unrecognised kind; a switch showing the boolean, an edit field showing the number's `toString()` or the text, a button for a blob, and for an enum with constants a spinner positioned by `InitialSelection` on the current constant |
| ConfigEdit.Put | app/src/main/java/com/example/warehouseinventoryapp/ConfigurationActivity.kt:29 | after `propertyViewsMap[property] = view` the key maps to the new view; every other key is found at the same position with the same view; keys already present keep their order and key objects; only a new key lengthens the map, by one entry at the end |
| ConfigEdit.EditSurfaceMembers | app/src/main/java/com/example/warehouseinventoryapp/ConfigurationActivity.kt:120-130 | an entry is on the edit surface iff its property is listed, supported, writable and of a shown kind, with the widget made for it |
| ConfigEdit.BuildEntriesIsEditSurface | app/src/main/java/com/example/warehouseinventoryapp/ConfigurationActivity.kt:120-131 | when every property object is distinct, filling the map property by property yields exactly the filtered list, in flatten order |
| ConfigEdit.FetchEntriesMembers | app/src/main/java/com/example/warehouseinventoryapp/ConfigurationActivity.kt:115-131 | a property of the tree gets an entry iff it is in the tree, supported, not read-only, and of a kind the screen shows; entries keep flatten order |
| ConfigEdit.ManageBlobProperty | app/src/main/java/com/example/warehouseinventoryapp/ConfigurationActivity.kt:305-313 | a missing or unsupported blob is refused; a supported one is handled under its own name |
| ConfigEdit.BlobEntriesAreManaged | app/src/main/java/com/example/warehouseinventoryapp/ConfigurationActivity.kt:215-225 | the button of a blob entry on the screen always manages its own property, by name; the refusal branch never fires from the screen |
| ConfigApply.StepOf | app/src/main/java/com/example/warehouseinventoryapp/ConfigurationActivity.kt:243-287 | blob and unrecognised properties are skipped; the pass stops on a numeric field exactly when its text is not an `Int`; an enum entry with constants and an in-range position throws (the `as Nothing?` cast) instead of being set; a view of the wrong class for the kind is skipped, as the `as?` casts do; a switch stages its checked state, a numeric field the `Int` its text parses to, a text field its content; whatever is staged is a value of the property's kind |
| ConfigApply.FirstStop | app/src/main/java/com/example/warehouseinventoryapp/ConfigurationActivity.kt:250-268 | the first entry that ends the pass, by a bad number or a failing enum cast: no earlier entry does, and it does |
| ConfigApply.ApplyConfigurationChanges | app/src/main/java/com/example/warehouseinventoryapp/ConfigurationActivity.kt:240-300 | the loop makes exactly the calls and reports exactly the outcome of the reference pass. The `set` calls come in entry order up to the first unparsable number, enum cast or throwing call, and `commit()` only after all entries. A ConfigException is reported with its message; any other exception, the cast failure included, as an unexpected error |
| ConfigApply.StagedCallsAreWellTyped | app/src/main/java/com/example/warehouseinventoryapp/ConfigurationActivity.kt:244-286 | every planned `set` targets a property whose entry is in the map, with a value of that property's kind; blob, enum and unrecognised properties are never set |
| ConfigApply.CommitOnlyAtEnd | app/src/main/java/com/example/warehouseinventoryapp/ConfigurationActivity.kt:288-291 | `commit()` is called at most once, only as the last call, and only when no entry ended the pass |
| ConfigApply.InvalidNumberKeepsEarlierSets | app/src/main/java/com/example/warehouseinventoryapp/ConfigurationActivity.kt:263-268 | an unparsable numeric field ends the pass naming that property, without `commit()`, with every `set` for earlier entries already made and not undone |
| ConfigApply.AcceptingDevice | app/src/main/java/com/example/warehouseinventoryapp/ConfigurationActivity.kt:240-298 | against a device that accepts every call: a pass in which no entry ends it sets every staged value in order, then commits once and reports success; otherwise it makes the sets before the first stopping entry and reports "invalid input" for a bad number or an unexpected error for an enum |
| ConfigApply.SetsAreWellTyped | app/src/main/java/com/example/warehouseinventoryapp/ConfigurationActivity.kt:242-287 | every `set` actually made (device errors included) is a value of the right kind on a property of the map |
| ConfigApply.OnlyEditablePropertiesAreSet | app/src/main/java/com/example/warehouseinventoryapp/ConfigurationActivity.kt:120-128 | on the surface fetched from a tree, every `set` lands on a supported, writable property of the tree that is neither a blob nor an enum, with a value of its kind |
| ConfigApply.EnumSelectionPreventsCommit | app/src/main/java/com/example/warehouseinventoryapp/ConfigurationActivity.kt:250-258 | if any entry has an enum constant selected, the configuration is never committed and the pass never reports success, whatever the device answers |
| ConfigApply.UneditedEntryStagesCurrentValue | app/src/main/java/com/example/warehouseinventoryapp/ConfigurationActivity.kt:163-276 | applying an unedited widget writes back the current value of a boolean, numeric or text property (numbers survive the `toString`/`toIntOrNull` round trip) and skips blobs; an enum with at least one constant always has a selected position, so its cast fails |
| KotlinText.ParseInt | app/src/main/java/com/example/warehouseinventoryapp/ConfigurationActivity.kt:263 | `toIntOrNull` accepts exactly an optional `-` or `+` followed by one or more digits whose signed value fits 32 bits, and then yields that signed value; so it rejects the empty string and a lone sign |
| KotlinText.FirstUnit | app/src/main/java/com/example/warehouseinventoryapp/KeyboardActivity.kt:338 | Kotlin's `s[0]` is a UTF-16 code unit: the character itself inside the Basic Multilingual Plane, a high surrogate outside it |
| KotlinText.ParseIntToString | app/src/main/java/com/example/warehouseinventoryapp/ConfigurationActivity.kt:201 | every 32-bit `Int` shown with `toString()` parses back to itself |
| KotlinText.Trim | app/src/main/java/com/example/warehouseinventoryapp/KeyboardActivity.kt:196 | `trim()` is a slice whose cut-off ends are all whitespace and which neither starts nor ends with whitespace |
| KotlinText.TrimIdempotent | app/src/main/java/com/example/warehouseinventoryapp/KeyboardActivity.kt:215 | trimming a trimmed string changes nothing |
| KotlinText.TrimEmpty | app/src/main/java/com/example/warehouseinventoryapp/KeyboardActivity.kt:411-412 | a string trims to empty exactly when every character is whitespace |
| Inventory.Initial | app/src/main/java/com/example/warehouseinventoryapp/MainActivity.kt:35-36 | the screen starts with an empty list and action NONE |
| Inventory.Find | app/src/main/java/com/example/warehouseinventoryapp/MainActivity.kt:196 | `find` returns the first item with the barcode, and nothing exactly when no item carries it |
| Inventory.Add | app/src/main/java/com/example/warehouseinventoryapp/MainActivity.kt:195-202 | adding a present barcode raises that item's quantity by one and keeps length, order, its barcode and name and every other item; an absent barcode appends `Item(barcode, "Item Name", 1)` at the end |
| Inventory.AddStock | app/src/main/java/com/example/warehouseinventoryapp/MainActivity.kt:195-202 | add raises the total stock of the scanned barcode by exactly one, changes no other barcode's stock, and the barcode set becomes the old set plus the barcode |
| Inventory.RemoveFirst | app/src/main/java/com/example/warehouseinventoryapp/MainActivity.kt:210 | `remove(element)` leaves the list alone when the element is absent and otherwise shortens it by one |
| Inventory.RemoveDeletesFound | app/src/main/java/com/example/warehouseinventoryapp/MainActivity.kt:207-210 | removing by equality the item `find` returned deletes exactly that position, keeping the others in order |
| Inventory.RemoveEffect | app/src/main/java/com/example/warehouseinventoryapp/MainActivity.kt:207-215 | remove on an absent barcode leaves the list unchanged; on a present one deletes the first item with it, keeping the rest in order; other barcodes' stock is kept |
| Inventory.RemoveClears | app/src/main/java/com/example/warehouseinventoryapp/MainActivity.kt:207-210 | in a list with distinct barcodes, remove takes the barcode out of the list entirely |
| Inventory.UpdateEffect | app/src/main/java/com/example/warehouseinventoryapp/MainActivity.kt:218-227 | update on a present barcode is exactly add on it (only the found item changes, only its quantity, by one), raising that barcode's stock by one; an absent barcode leaves the list unchanged, so update never inserts |
| Inventory.AddKeepsValid | app/src/main/java/com/example/warehouseinventoryapp/MainActivity.kt:196-201 | add keeps barcodes pairwise distinct and every quantity at least one |
| Inventory.UpdateKeepsValid | app/src/main/java/com/example/warehouseinventoryapp/MainActivity.kt:219-222 | update keeps barcodes distinct and quantities at least one |
| Inventory.RemoveKeepsValid | app/src/main/java/com/example/warehouseinventoryapp/MainActivity.kt:208-210 | remove keeps barcodes distinct and quantities at least one |
| Inventory.PressButton | app/src/main/java/com/example/warehouseinventoryapp/MainActivity.kt:58-71 | a button sets ADD, REMOVE or UPDATE (never NONE) and leaves the list alone |
| Inventory.Scan | app/src/main/java/com/example/warehouseinventoryapp/MainActivity.kt:175-193 | every scan resets the action to NONE, and a scan with no action pending changes nothing |
| Inventory.ScanDispatches | app/src/main/java/com/example/warehouseinventoryapp/MainActivity.kt:179-189 | after a button press, the next scan performs exactly that button's operation on the list and resets the action |
| Inventory.SecondScanIsIgnored | app/src/main/java/com/example/warehouseinventoryapp/MainActivity.kt:188-189 | a second scan with no button pressed in between changes nothing |
| Inventory.StepKeepsValid | app/src/main/java/com/example/warehouseinventoryapp/MainActivity.kt:175-193 | every press or scan keeps the list valid |
| Inventory.RunKeepsValid | app/src/main/java/com/example/warehouseinventoryapp/MainActivity.kt:175-228 | any sequence of presses and scans from a valid list ends in a valid list |
| Inventory.ReachableIsValid | app/src/main/java/com/example/warehouseinventoryapp/MainActivity.kt:35-36 | every state reachable from the empty start has distinct barcodes and quantities of at least one |
| KeyboardSettings.Load | app/src/main/java/com/example/warehouseinventoryapp/KeyboardActivity.kt:289-313 | an absent key loads the table's default; a present key loads its value when it has the setting's type and fails with ClassCast otherwise |
| KeyboardSettings.Store | app/src/main/java/com/example/warehouseinventoryapp/KeyboardActivity.kt:316-318 | after a save the setting loads as the saved value, every other setting loads as before, and a well-typed file stays well typed |
| KeyboardSettings.KeysInjective | app/src/main/java/com/example/warehouseinventoryapp/KeyboardActivity.kt:289-313 | no two settings share a preference key |
| KeyboardSettings.DefaultsFit | app/src/main/java/com/example/warehouseinventoryapp/KeyboardActivity.kt:289-313 | every load default has its setting's type |
| KeyboardSettings.WellTypedLoads | app/src/main/java/com/example/warehouseinventoryapp/KeyboardActivity.kt:289-313 | in a file holding only values of the right types, every setting loads without a ClassCast |
| KeyboardSettings.FieldValue | app/src/main/java/com/example/warehouseinventoryapp/KeyboardActivity.kt:139-248 | a numeric field stores its parsed `Int`, or its fallback (sensitivity 0, timeout 5, multitap 330) when the text is not an `Int` |
| KeyboardSettings.FallbackIsLoadDefault | app/src/main/java/com/example/warehouseinventoryapp/KeyboardActivity.kt:298-313 | each numeric field's parse fallback equals the default loaded for its absent key |
| KeyboardSettings.LeaveIntField | app/src/main/java/com/example/warehouseinventoryapp/KeyboardActivity.kt:234-240 | leaving a numeric field saves its value under the key it is later loaded from and changes no other setting |
| KeyboardSettings.LeaveTextField | app/src/main/java/com/example/warehouseinventoryapp/KeyboardActivity.kt:194-219 | leaving the target or walkie-talkie field saves the trimmed text, which then loads back, and changes no other setting |
| KeyboardSettings.SpinnerPosition | app/src/main/java/com/example/warehouseinventoryapp/KeyboardActivity.kt:291-303 | `setSelection` is called with the index of the loaded text among the spinner's items, and with -1 exactly when the text is not an item; to the first item when nothing is stored; it fails exactly when the stored value is not a string |
| KeyboardSettings.SelectThenReload | app/src/main/java/com/example/warehouseinventoryapp/KeyboardActivity.kt:172-192 | choosing a spinner item and reloading the screen selects the same item |
| KeyboardSettings.ToggleSwitch | app/src/main/java/com/example/warehouseinventoryapp/KeyboardActivity.kt:109-170 | a switch saves its state under its own key and nothing else; the reset switch saves nothing by itself |
| KeyboardSettings.SeekBrightness | app/src/main/java/com/example/warehouseinventoryapp/KeyboardActivity.kt:228-232 | moving the brightness bar saves the progress, which then loads back, and changes no other setting |
| KeyboardSettings.LoadGeneral | app/src/main/java/com/example/warehouseinventoryapp/KeyboardActivity.kt:290-292 | the general group loads exactly when its three keys do, and shows the lock and trigger switches' stored states and the trigger spinner's restored position |
| KeyboardSettings.LoadAutoScan | app/src/main/java/com/example/warehouseinventoryapp/KeyboardActivity.kt:294-295 | the auto-scan group loads exactly when its two keys do, and shows the stored switch state and the range spinner's restored position |
| KeyboardSettings.LoadMotion | app/src/main/java/com/example/warehouseinventoryapp/KeyboardActivity.kt:297-299 | the motion group loads exactly when its three keys do, and shows the two stored switch states and the stored sensitivity as text |
| KeyboardSettings.LoadRemapping | app/src/main/java/com/example/warehouseinventoryapp/KeyboardActivity.kt:301-304 | the remapping group loads exactly when its four keys do, and shows the stored reset state, both spinners' restored positions and the stored target text |
| KeyboardSettings.LoadPtt | app/src/main/java/com/example/warehouseinventoryapp/KeyboardActivity.kt:306-308 | the push-to-talk group loads exactly when its three keys do, and shows the two stored switch states and the stored app text |
| KeyboardSettings.LoadBacklight | app/src/main/java/com/example/warehouseinventoryapp/KeyboardActivity.kt:310-313 | the backlight group loads exactly when its four keys do, and shows the stored switch state, the stored brightness as the bar's progress and the stored timeout and multitap delay as text |
| KeyboardSettings.LoadSettings | app/src/main/java/com/example/warehouseinventoryapp/KeyboardActivity.kt:289-314 | loading succeeds exactly when every group loads, fails only on a key that is present in the file, and every switch, spinner, text field, numeric field and the brightness bar shows what its own key loads |
| KeyboardSettings.SwitchShowsStored | app/src/main/java/com/example/warehouseinventoryapp/KeyboardActivity.kt:289-313 | on a loaded screen every switch shows the state stored under its own key |
| KeyboardSettings.ToggleThenReload | app/src/main/java/com/example/warehouseinventoryapp/KeyboardActivity.kt:109-170 | flipping a switch other than reset and reloading shows the new state on it and the old state on every other switch |
| KeyboardSettings.SeekThenReload | app/src/main/java/com/example/warehouseinventoryapp/KeyboardActivity.kt:228-232 | moving the brightness bar and reloading shows the new progress on the bar |
| KeyboardSettings.LoadDefaults | app/src/main/java/com/example/warehouseinventoryapp/KeyboardActivity.kt:289-313 | with nothing stored, every widget shows the table's default and every spinner its first item |
| KeyboardSettings.WellTypedScreenLoads | app/src/main/java/com/example/warehouseinventoryapp/KeyboardActivity.kt:289-313 | a well-typed file always loads, and the two text fields show the stored text |
| KeyboardSettings.ShownIntRoundTrip | app/src/main/java/com/example/warehouseinventoryapp/KeyboardActivity.kt:310-313 | a numeric field shows its stored number, and leaving it unedited stores the same number, so every setting loads as before |
| KeyboardRemap.ScanCodeValue | app/src/main/java/com/example/warehouseinventoryapp/KeyboardActivity.kt:506-514 | each of the four enabled names maps to its own scan code and every other string maps to code 0 |
| KeyboardRemap.OfferedScanCodes | app/src/main/java/com/example/warehouseinventoryapp/KeyboardActivity.kt:39-46 | of the six offered keys, exactly the two push-to-talk triggers map to code 0, and those two are the only pair sharing a code |
| KeyboardRemap.Remap | app/src/main/java/com/example/warehouseinventoryapp/KeyboardActivity.kt:326-351 | Keycode maps iff the name resolves; Unicode maps the first `Char` (UTF-16 code unit) iff the target is non-empty; Intent always maps the target as an action; any other type maps nothing; at most one command |
| KeyboardRemap.ApplyKeyRemapping | app/src/main/java/com/example/warehouseinventoryapp/KeyboardActivity.kt:320-352 | the remapping issues at most one command and fails only on a stored key of the wrong type |
| KeyboardRemap.ApplyReadsStoredSettings | app/src/main/java/com/example/warehouseinventoryapp/KeyboardActivity.kt:320-352 | the remapping fails exactly when one of the stored source key, remap type or target is unreadable, otherwise issues the dispatch of those three loaded values, and never fails on a well-typed file |
| KeyboardRemap.ApplyWithDefaults | app/src/main/java/com/example/warehouseinventoryapp/KeyboardActivity.kt:321-323 | with nothing stored, the remapping falls back to the first offered key and the Keycode type and looks up the empty target |
| KeyboardRemap.LeaveTargetUsesTrimmed | app/src/main/java/com/example/warehouseinventoryapp/KeyboardActivity.kt:194-199 | through the target field the remapping sees the trimmed text: a Unicode mapping carries the first unit of the trimmed text, whose first character is not whitespace; an intent carries the trimmed action; a key code is the trimmed name's |
| KeyboardRemap.TargetFieldApplies | app/src/main/java/com/example/warehouseinventoryapp/KeyboardActivity.kt:194-199 | leaving the target field dispatches on the stored source key and type with the trimmed text |
| KeyboardRemap.KeyCodeDialog | app/src/main/java/com/example/warehouseinventoryapp/KeyboardActivity.kt:364-374 | the key-code dialog maps iff the trimmed name resolves, to the selected key |
| KeyboardRemap.UnicodeDialog | app/src/main/java/com/example/warehouseinventoryapp/KeyboardActivity.kt:387-396 | the Unicode dialog, without trimming, maps nothing exactly for the empty text and otherwise the text's first `Char` (UTF-16 code unit) |
| KeyboardRemap.SupplementaryCharMapsHighSurrogate | app/src/main/java/com/example/warehouseinventoryapp/KeyboardActivity.kt:389-394 | for a character outside the Basic Multilingual Plane the Unicode dialog maps only its high surrogate (U+D83D for U+1F600), half of the two units that encode it |
| KeyboardRemap.IntentDialog | app/src/main/java/com/example/warehouseinventoryapp/KeyboardActivity.kt:409-422 | the intent dialog maps nothing exactly when the trimmed text is empty, and otherwise the trimmed action |
| KeyboardRemap.IntentDialogGuard | app/src/main/java/com/example/warehouseinventoryapp/KeyboardActivity.kt:411-412 | the intent dialog refuses exactly the inputs made only of whitespace |
| KeyboardRemap.BlankInputGuards | app/src/main/java/com/example/warehouseinventoryapp/KeyboardActivity.kt:389-412 | a single space is mapped by the Unicode dialog but refused by the intent dialog |
| KeyboardRemap.DialogsMatchRemap | app/src/main/java/com/example/warehouseinventoryapp/KeyboardActivity.kt:326-396 | the key-code and Unicode dialogs issue what the stored-settings remapping would for a trimmed key-code name and an untrimmed Unicode text |
| KeyboardRemap.ConfigurePtt | app/src/main/java/com/example/warehouseinventoryapp/KeyboardActivity.kt:429-452 | the wake-up source is activated first; mappings follow iff the stored package is non-empty and its launch intent resolves; a stored value of the wrong type is reported as a failure |
| KeyboardRemap.PttMapsScanCodeZeroTwice | app/src/main/java/com/example/warehouseinventoryapp/KeyboardActivity.kt:437-440 | a configured PTT issues the same intent mapping twice, both on scan code 0 |
| KeyboardRemap.PttAfterEnteringApp | app/src/main/java/com/example/warehouseinventoryapp/KeyboardActivity.kt:213-219 | after the package field is left, PTT is configured iff the entered text has a non-whitespace character and the trimmed name resolves |
| KeyboardRemap.ConfirmReset | app/src/main/java/com/example/warehouseinventoryapp/KeyboardActivity.kt:159-163 | confirming the reset clears all mappings and saves the reset switch off, changing no other setting |
| KeyboardRemap.DeleteAllMappings | app/src/main/java/com/example/warehouseinventoryapp/KeyboardActivity.kt:486-495 | the delete button clears all mappings and changes no setting |
| KeyboardRemap.ToggleLock | app/src/main/java/com/example/warehouseinventoryapp/KeyboardActivity.kt:92-96 | the lock switch locks or unlocks input, saves the same state and changes no other setting |
| KeyboardRemap.ResetNeverStoredOn | app/src/main/java/com/example/warehouseinventoryapp/KeyboardActivity.kt:154-170 | while the reset switch loads as off, neither toggling it nor confirming the reset dialog makes it load as on: the screen never saves `true` for it |

## Left out

- Android UI construction, toasts, dialogs' layout, bottom navigation and permission requests in all three activities: view plumbing with no state the model tracks.
- The configuration broadcast receiver and notification channel (`ConfigurationActivity.kt:32-53`, `:324-339`): operating-system broadcast I/O that only posts a notification.
- The exception path of fetching the tree (`ConfigurationActivity.kt:132-135`): getting the tree root is a vendor call whose failures are not visible; the model starts from a tree.
- ConfigApply.ApplyConfigurationChanges: a property's `get()` during widget creation and `getEnumConstants()` during apply are taken to return the values recorded in the tree, and neither is assumed to throw. A `ConfigException` with a null message is modelled as one with a message.
- ConfigEdit.InitialSelection: enum constants are compared by name, as if `toString()` were injective over each enum's constants.
- KotlinText.ParseInt: only ASCII digits are accepted. Kotlin also accepts the other Unicode decimal digits that `Character.digit` recognises, and those are not modelled.
- Inventory.Add: quantities are unbounded integers, so the 32-bit wrap-around of `quantity += 1` at `Int.MAX_VALUE` is not modelled.
- Inventory.Scan: one scan is one dispatch. Each button press creates a new barcode manager and listener on a background coroutine (`MainActivity.kt:151-173`), and a listener left over from an earlier press could deliver the same scan more than once. That threading is not modelled. The scanner set-up (`:230-243`), the result text and the inventory view toggle (`:73-80`) are UI or vendor I/O.
- Android fires a switch's or spinner's listener when `loadSettings` sets it programmatically. KeyboardSettings.LoadSettings does not model those re-entrant saves, nor the reset dialog a restored `true` would open.
- The key-code lookup (`KeyboardActivity.kt:497-504`) and `getLaunchIntentForPackage` are parameters, because reflection and the package manager are not visible. The vendor's numeric `VScanCode` values are symbolic; only which names share a code is modelled.
- KeyboardRemap.ConfigurePtt: assumes `activateWakeup` and `mapIntent` return normally. If they throw, the real code reports a failure part-way, and the model does not cover that. The same holds for the vendor calls of `applyKeyRemapping` and the dialogs.
- KeyboardRemap.ToggleLock: assumes `keyboardManager.lockInput` (`KeyboardActivity.kt:93`) returns normally. It runs before the save at `:94` and outside any `try`, so if it throws, `lock_input` is not saved and the exception is not caught. The model always saves.
- KeyboardRemap.ConfirmReset: assumes `keyboardManager.clearAllMappings` (`KeyboardActivity.kt:160`) returns normally. It runs before the save at `:161` and outside any `try`, so if it throws, `reset_remapping` is not saved and the exception is not caught. The model always saves.
- Configuration export and import (`KeyboardActivity.kt:454-484`): file I/O. The custom-action dialog (`:425-427`) only shows a message.
- SharedPreferences asynchronous `apply()` is modelled as an immediate write.
- SystemActivity, BatteryActivity, CradleActivity, NfcActivity and InventoryAdapter are not part of this model.

=== FILE: basics.dfy ===
/** Failure-carrying wrappers shared by every module of the model. */
module Basics {

  /** A value that may be absent: Kotlin's nullable `T?`. */
  datatype Option<+T> = None | Some(value: T)

  /** The outcome of an operation that may throw: `Ok` or the exception it raised. */
  datatype Result<+T, +E> = Ok(value: T) | Err(error: E) {
    predicate IsFailure() {
      Err?
    }

    function PropagateFailure<U>(): Result<U, E>
      requires Err?
    {
      Err(error)
    }

    function Extract(): T
      requires Ok?
    {
      value
    }
  }
}

=== FILE: config_apply.dfy ===
/**
  The apply pass of the configuration screen (`applyConfigurationChanges`).
  The entries are walked in map order; each stages a value on its property
  with `set` according to its kind. An unparsable numeric field ends the pass
  without committing, and so does a selected enum constant, whose cast to
  `Nothing?` throws before `set` is reached; a completed pass calls
  `commit()` once. Vendor calls are recorded as events; the device answers
  each call through an oracle that sees the whole call history. Nothing is
  rolled back.
*/
module ConfigApply {
  import opened Basics
  import opened KotlinText
  import opened ConfigTree
  import opened ConfigEdit

  /**
    A value handed to `Property.set`. No enum constant ever reaches `set`
    (see `StepOf`), so there is no enum value.
  */
  datatype Value = BoolValue(flag: bool) | IntValue(number: int) | TextValue(text: string)

  /** A call into the vendor configuration API. */
  datatype Event = SetValue(id: int, value: Value) | Commit

  /** How a vendor call returns: normally, with a `ConfigException`, or with any other exception. */
  datatype Reply = Accepted | ConfigError(message: string) | OtherError

  /** The device's answer to the last call of a call history. */
  type Device = seq<Event> -> Reply

  /** What the user is told at the end of the pass. */
  datatype Outcome =
    | Updated                     // "Configuration updated successfully"
    | InvalidNumber(name: string) // "Invalid input for <name>", pass abandoned
    | Failed(message: string)     // a ConfigException with its message
    | Unexpected                  // any other exception

  datatype ApplyResult = ApplyResult(trace: seq<Event>, outcome: Outcome)

  /**
    What one entry contributes: nothing, a staged value, the early `return`
    on an unparsable number, or a `ClassCastException` thrown inside the loop.
  */
  datatype Step = Skip | Stage(value: Value) | Reject | CastFails

  /** The entry's step ends the pass before any later entry is looked at. */
  predicate EndsPass(s: Step) {
    s.Reject? || s.CastFails?
  }

  /** `v` is a value a property of kind `k` may be set to by the screen. */
  predicate SettableBy(k: Kind, v: Value) {
    match k
    case BooleanKind(_) => v.BoolValue?
    case NumericKind(_) => v.IntValue? && IsInt32(v.number)
    case TextKind(_) => v.TextValue?
    case EnumKind(_, _) => false
    case BlobKind => false
    case OtherKind => false
  }

  /**
    The per-entry dispatch of the apply pass: the property's kind chooses the
    branch, and a view of the wrong class is skipped as the `as?` casts do.
    An enum with constants and an in-range spinner position casts the chosen
    constant `as Nothing?`; on the JVM that is a cast to `java.lang.Void`,
    which every (non-null) enum constant fails, so `set` is never called and
    the exception leaves the loop.
  */
  function StepOf(e: Entry): (r: Step)
    ensures e.prop.kind.BlobKind? || e.prop.kind.OtherKind? ==> r == Skip
    ensures r.Reject? <==> e.prop.kind.NumericKind? && e.widget.EditTextView? && ParseInt(e.widget.content).None?
    ensures r.CastFails? <==>
              && e.prop.kind.EnumKind? && e.widget.SpinnerView? && e.prop.kind.constants.Some?
              && 0 <= e.widget.position < |e.prop.kind.constants.value|
    ensures r.Stage? ==> SettableBy(e.prop.kind, r.value)
    ensures e.prop.kind.BooleanKind? && e.widget.SwitchView? ==> r == Stage(BoolValue(e.widget.checked))
    ensures e.prop.kind.NumericKind? && e.widget.EditTextView? && ParseInt(e.widget.content).Some? ==>
              r == Stage(IntValue(ParseInt(e.widget.content).value))
    ensures e.prop.kind.TextKind? && e.widget.EditTextView? ==> r == Stage(TextValue(e.widget.content))
    ensures e.prop.kind.BooleanKind? && !e.widget.SwitchView? ==> r == Skip
    ensures (e.prop.kind.NumericKind? || e.prop.kind.TextKind?) && !e.widget.EditTextView? ==> r == Skip
    ensures e.prop.kind.EnumKind? && !e.widget.SpinnerView? ==> r == Skip
  {
    match e.prop.kind
    case BooleanKind(_) =>
      if e.widget.SwitchView? then Stage(BoolValue(e.widget.checked)) else Skip
    case EnumKind(constants, _) =>
      if e.widget.SpinnerView? && constants.Some? && 0 <= e.widget.position < |constants.value|
      then CastFails
      else Skip
    case NumericKind(_) =>
      if e.widget.EditTextView? then
        match ParseInt(e.widget.content)
        case Some(n) => Stage(IntValue(n))
        case None => Reject
      else Skip
    case TextKind(_) =>
      if e.widget.EditTextView? then Stage(TextValue(e.widget.content)) else Skip
    case BlobKind => Skip
    case OtherKind => Skip
  }

  /** The message shown for an entry that ends the pass. */
  function StopOutcome(e: Entry): Outcome
    requires EndsPass(StepOf(e))
  {
    if StepOf(e).Reject? then InvalidNumber(e.prop.name) else Unexpected
  }

  /** The `set` call one entry makes when the pass reaches it. */
  function EventsOf(e: Entry): seq<Event> {
    if StepOf(e).Stage? then [SetValue(e.prop.id, StepOf(e).value)] else []
  }

  /** Every `set` call of the entries, in order. */
  function Staged(es: seq<Entry>): seq<Event> {
    if |es| == 0 then [] else Staged(es[..|es| - 1]) + EventsOf(es[|es| - 1])
  }

  /** Position of the first entry that ends the pass, or `|es|` when none does. */
  function FirstStop(es: seq<Entry>): (j: nat)
    ensures j <= |es|
    ensures forall k :: 0 <= k < j ==> !EndsPass(StepOf(es[k]))
    ensures j < |es| ==> EndsPass(StepOf(es[j]))
  {
    if |es| == 0 then 0
    else if EndsPass(StepOf(es[0])) then 0
    else 1 + FirstStop(es[1..])
  }

  /**
    The calls a pass makes if the device accepts all of them: the `set` calls
    of the entries before the first one that ends the pass, then `commit()`
    only when no entry ends it.
  */
  function Plan(es: seq<Entry>): seq<Event> {
    var j := FirstStop(es);
    Staged(es[..j]) + if j == |es| then [Commit] else []
  }

  /** The device's answer to call number `k` of `calls`, given the calls before it. */
  function ReplyAt(device: Device, calls: seq<Event>, k: nat): Reply
    requires k < |calls|
  {
    device(calls[..k + 1])
  }

  /** Every call before position `n` returned normally. */
  predicate AcceptedUpTo(device: Device, calls: seq<Event>, n: nat)
    requires n <= |calls|
  {
    forall k :: 0 <= k < n ==> ReplyAt(device, calls, k) == Accepted
  }

  /** Position of the first call in `calls` the device does not accept, searching from `from`. */
  function FirstRefused(device: Device, calls: seq<Event>, from: nat): (r: Option<nat>)
    requires from <= |calls| && AcceptedUpTo(device, calls, from)
    ensures r.None? ==> AcceptedUpTo(device, calls, |calls|)
    ensures r.Some? ==> r.value < |calls| && AcceptedUpTo(device, calls, r.value)
                        && ReplyAt(device, calls, r.value) != Accepted
    decreases |calls| - from
  {
    if from == |calls| then None
    else if ReplyAt(device, calls, from) != Accepted then Some(from)
    else FirstRefused(device, calls, from + 1)
  }

  /** The message shown for a call that threw. */
  function ErrorOutcome(reply: Reply): Outcome
    requires reply != Accepted
  {
    match reply
    case ConfigError(m) => Failed(m)
    case OtherError => Unexpected
  }

  /**
    Reference result of the pass: follow the plan up to and including the
    first call the device refuses; otherwise the pass ends as planned.
  */
  function Expected(es: seq<Entry>, device: Device): ApplyResult {
    var plan := Plan(es);
    match FirstRefused(device, plan, 0)
    case Some(k) => ApplyResult(plan[..k + 1], ErrorOutcome(ReplyAt(device, plan, k)))
    case None =>
      var j := FirstStop(es);
      ApplyResult(plan, if j == |es| then Updated else StopOutcome(es[j]))
  }

  // ---------------------------------------------------------------------
  // Facts about the reference definitions

  lemma {:induction false} StagedPrefix(es: seq<Entry>, i: nat, j: nat)
    requires i <= j <= |es|
    ensures Staged(es[..i]) <= Staged(es[..j])
    decreases j - i
  {
    if i < j {
      StagedPrefix(es, i, j - 1);
      assert es[..j][..j - 1] == es[..j - 1];
    }
  }

  lemma {:induction false} StagedStep(es: seq<Entry>, i: nat)
    requires i < |es|
    ensures Staged(es[..i + 1]) == Staged(es[..i]) + EventsOf(es[i])
  {
    assert es[..i + 1][..i] == es[..i];
  }

  lemma {:induction false} StagedHasNoCommit(es: seq<Entry>)
    ensures Commit !in Staged(es)
  {
    if |es| > 0 {
      StagedHasNoCommit(es[..|es| - 1]);
    }
  }

  /**
    Every `set` call of the entries stages, on a property whose entry is in
    the map, a value of that property's kind; blob, enum and unrecognised
    properties are never set.
  */
  lemma {:induction false} StagedCallsAreWellTyped(es: seq<Entry>, ev: Event)
    requires ev in Staged(es)
    ensures ev.SetValue?
    ensures exists e :: e in es && e.prop.id == ev.id && StepOf(e) == Stage(ev.value)
    ensures exists e :: e in es && e.prop.id == ev.id && SettableBy(e.prop.kind, ev.value)
  {
    var init := es[..|es| - 1];
    var last := es[|es| - 1];
    if ev in Staged(init) {
      StagedCallsAreWellTyped(init, ev);
      var e :| e in init && e.prop.id == ev.id && StepOf(e) == Stage(ev.value);
      assert e in es;
    } else {
      assert ev in EventsOf(last);
      assert last in es;
    }
  }

  // ---------------------------------------------------------------------
  // The pass itself

  /**
    `applyConfigurationChanges`: walks the entries in order, calls `set` for
    each staged value and stops at the first call that throws, the first
    unparsable numeric field or the first selected enum constant; a pass that
    gets through every entry calls `commit()`.
  */
  method ApplyConfigurationChanges(entries: seq<Entry>, device: Device) returns (r: ApplyResult)
    ensures r == Expected(entries, device)
  {
    var trace: seq<Event> := [];
    var i := 0;
    while i < |entries|
      invariant 0 <= i <= |entries|
      invariant i <= FirstStop(entries)
      invariant trace == Staged(entries[..i])
      invariant AcceptedUpTo(device, trace, |trace|)
      decreases |entries| - i
    {
      var e := entries[i];
      StagedStep(entries, i);
      var step := StepOf(e);
      if EndsPass(step) {
        FinishStopped(entries, device, trace, i);
        return ApplyResult(trace, StopOutcome(e));
      }
      if step.Stage? {
        var call := SetValue(e.prop.id, step.value);
        AcceptedPrefix(device, trace, trace + [call], |trace|);
        trace := trace + [call];
        var reply := device(trace);
        if reply != Accepted {
          FinishRefused(entries, device, trace, i + 1);
          return ApplyResult(trace, ErrorOutcome(reply));
        }
        LastAccepted(device, trace);
      }
      i := i + 1;
    }
    assert entries[..i] == entries;
    AcceptedPrefix(device, trace, trace + [Commit], |trace|);
    trace := trace + [Commit];
    var reply := device(trace);
    FinishCommitted(entries, device, trace);
    if reply != Accepted {
      return ApplyResult(trace, ErrorOutcome(reply));
    }
    return ApplyResult(trace, Updated);
  }

  /** Replies depend only on the calls made so far, so a longer history agrees on its prefix. */
  lemma {:induction false} AcceptedPrefix(device: Device, a: seq<Event>, b: seq<Event>, n: nat)
    requires a <= b && n <= |a|
    ensures AcceptedUpTo(device, a, n) <==> AcceptedUpTo(device, b, n)
  {
    forall k | 0 <= k < n
      ensures ReplyAt(device, a, k) == ReplyAt(device, b, k)
    {
      assert a[..k + 1] == b[..k + 1];
    }
  }

  lemma {:induction false} LastAccepted(device: Device, trace: seq<Event>)
    requires |trace| > 0 && AcceptedUpTo(device, trace, |trace| - 1) && device(trace) == Accepted
    ensures AcceptedUpTo(device, trace, |trace|)
  {
    assert trace[..|trace|] == trace;
  }

  lemma {:induction false} FinishStopped(es: seq<Entry>, device: Device, trace: seq<Event>, i: nat)
    requires i < |es| && EndsPass(StepOf(es[i]))
    requires forall k :: 0 <= k < i ==> !EndsPass(StepOf(es[k]))
    requires trace == Staged(es[..i]) && AcceptedUpTo(device, trace, |trace|)
    ensures Expected(es, device) == ApplyResult(trace, StopOutcome(es[i]))
  {
    assert FirstStop(es) == i;
    assert Plan(es) == trace;
  }

  lemma {:induction false} FinishRefused(es: seq<Entry>, device: Device, trace: seq<Event>, i: nat)
    requires 0 < i <= FirstStop(es)
    requires trace == Staged(es[..i]) && |trace| > 0
    requires AcceptedUpTo(device, trace, |trace| - 1) && device(trace) != Accepted
    ensures Expected(es, device) == ApplyResult(trace, ErrorOutcome(device(trace)))
  {
    var plan := Plan(es);
    var n := |trace| - 1;
    StagedPrefix(es, i, FirstStop(es));
    assert trace <= plan;
    AcceptedPrefix(device, trace, plan, n);
    assert trace[..n + 1] == trace == plan[..n + 1];
    assert ReplyAt(device, plan, n) != Accepted;
    FirstRefusedAt(device, plan, 0, n);
  }

  lemma {:induction false} FinishCommitted(es: seq<Entry>, device: Device, trace: seq<Event>)
    requires FirstStop(es) == |es|
    requires |trace| > 0 && trace[..|trace| - 1] == Staged(es) && trace[|trace| - 1] == Commit
    requires AcceptedUpTo(device, trace, |trace| - 1)
    ensures device(trace) != Accepted ==> Expected(es, device) == ApplyResult(trace, ErrorOutcome(device(trace)))
    ensures device(trace) == Accepted ==> Expected(es, device) == ApplyResult(trace, Updated)
  {
    var n := |trace| - 1;
    assert es[..|es|] == es;
    assert Plan(es) == trace;
    assert trace[..n + 1] == trace;
    if device(trace) != Accepted {
      FirstRefusedAt(device, trace, 0, n);
    } else {
      FirstRefusedNone(device, trace, 0);
    }
  }

  /** The search finds the first refused call when every earlier one was accepted. */
  lemma {:induction false} FirstRefusedAt(device: Device, calls: seq<Event>, from: nat, n: nat)
    requires from <= n < |calls| && AcceptedUpTo(device, calls, n)
    requires ReplyAt(device, calls, n) != Accepted
    ensures FirstRefused(device, calls, from) == Some(n)
    decreases n - from
  {
    if from < n {
      FirstRefusedAt(device, calls, from + 1, n);
    }
  }

  /** The search finds nothing when the device accepts every call. */
  lemma {:induction false} FirstRefusedNone(device: Device, calls: seq<Event>, from: nat)
    requires from <= |calls| && AcceptedUpTo(device, calls, |calls|)
    ensures FirstRefused(device, calls, from) == None
    decreases |calls| - from
  {
    if from < |calls| {
      FirstRefusedNone(device, calls, from + 1);
    }
  }

  // ---------------------------------------------------------------------
  // What the pass promises

  /**
    `commit()` is called at most once, only as the very last call, and only
    when every entry was processed without ending the pass.
  */
  lemma {:induction false} CommitOnlyAtEnd(es: seq<Entry>, device: Device)
    ensures var t := Expected(es, device).trace;
            forall k :: 0 <= k < |t| && t[k] == Commit ==> k == |t| - 1 && FirstStop(es) == |es|
  {
    var j := FirstStop(es);
    StagedHasNoCommit(es[..j]);
    var plan := Plan(es);
    var t := Expected(es, device).trace;
    assert t <= plan;
    forall k | 0 <= k < |Staged(es[..j])|
      ensures plan[k] != Commit
    {
      assert plan[k] == Staged(es[..j])[k];
    }
  }

  /**
    An unparsable numeric field ends the pass: no `commit()`, and every `set`
    made for earlier entries stays made.
  */
  lemma {:induction false} InvalidNumberKeepsEarlierSets(es: seq<Entry>, device: Device)
    ensures var r := Expected(es, device);
            r.outcome.InvalidNumber? ==>
              && FirstStop(es) < |es|
              && StepOf(es[FirstStop(es)]).Reject?
              && r.trace == Staged(es[..FirstStop(es)])
              && r.outcome.name == es[FirstStop(es)].prop.name
              && Commit !in r.trace
  {
    StagedHasNoCommit(es[..FirstStop(es)]);
  }

  /**
    A selected enum constant anywhere on the surface means the configuration
    is never committed and the pass never reports success, whatever the
    device answers: the `as Nothing?` cast throws first.
  */
  lemma {:induction false} EnumSelectionPreventsCommit(es: seq<Entry>, device: Device, k: nat)
    requires k < |es| && StepOf(es[k]).CastFails?
    ensures Commit !in Expected(es, device).trace
    ensures Expected(es, device).outcome != Updated
  {
    var j := FirstStop(es);
    assert j <= k;
    StagedHasNoCommit(es[..j]);
    assert Plan(es) == Staged(es[..j]);
    assert Expected(es, device).trace <= Plan(es);
  }

  /**
    When the device accepts every call, a pass in which no entry ends it sets
    every staged value in entry order and then commits exactly once; otherwise
    it makes the sets before the first such entry and reports that entry:
    "Invalid input" for a bad number, an unexpected error for an enum.
  */
  lemma {:induction false} AcceptingDevice(es: seq<Entry>, device: Device)
    requires forall calls :: device(calls) == Accepted
    ensures FirstStop(es) == |es| ==> Expected(es, device) == ApplyResult(Staged(es) + [Commit], Updated)
    ensures FirstStop(es) < |es| && StepOf(es[FirstStop(es)]).Reject? ==>
              Expected(es, device) == ApplyResult(Staged(es[..FirstStop(es)]), InvalidNumber(es[FirstStop(es)].prop.name))
    ensures FirstStop(es) < |es| && StepOf(es[FirstStop(es)]).CastFails? ==>
              Expected(es, device) == ApplyResult(Staged(es[..FirstStop(es)]), Unexpected)
  {
    assert es[..|es|] == es;
    FirstRefusedNone(device, Plan(es), 0);
  }

  /** Every `set` the pass makes stages a value of the right kind on a property of the map. */
  lemma {:induction false} SetsAreWellTyped(es: seq<Entry>, device: Device, ev: Event)
    requires ev in Expected(es, device).trace && ev != Commit
    ensures ev.SetValue?
    ensures exists e :: e in es && e.prop.id == ev.id && SettableBy(e.prop.kind, ev.value)
  {
    var j := FirstStop(es);
    var t := Expected(es, device).trace;
    assert t <= Plan(es);
    var k :| 0 <= k < |t| && t[k] == ev;
    assert Plan(es)[k] == ev;
    assert ev in Staged(es[..j]);
    StagedCallsAreWellTyped(es[..j], ev);
    var e :| e in es[..j] && e.prop.id == ev.id && SettableBy(e.prop.kind, ev.value);
    assert e in es;
  }

  /**
    End to end: on the surface fetched from a tree, every `set` the pass
    makes lands on a property of the tree that is supported and writable,
    with a value of its kind; read-only, unsupported, blob and enum
    properties are never set.
  */
  lemma {:induction false} OnlyEditablePropertiesAreSet(root: Group, device: Device, ev: Event)
    requires DistinctIds(Flatten(root))
    requires ev in Expected(FetchEntries(root), device).trace && ev != Commit
    ensures ev.SetValue?
    ensures exists p :: && InTree(p, root) && p.id == ev.id && p.supported && !p.readOnly
                        && !p.kind.BlobKind? && !p.kind.EnumKind? && SettableBy(p.kind, ev.value)
  {
    SetsAreWellTyped(FetchEntries(root), device, ev);
    var e :| e in FetchEntries(root) && e.prop.id == ev.id && SettableBy(e.prop.kind, ev.value);
    FetchEntriesMembers(root, e);
  }

  /**
    Applying the surface exactly as it was built, with no user edits, stages
    every boolean, numeric and text property's current value (numeric values
    within `Int` range survive the `toString`/`toIntOrNull` round trip) and
    nothing for blobs; an enum with at least one constant always has a
    position selected, so its cast fails, and one without constants is skipped.
  */
  lemma {:induction false} UneditedEntryStagesCurrentValue(p: Property)
    requires GetsEntry(p)
    requires p.kind.NumericKind? ==> IsInt32(p.kind.number)
    ensures var s := StepOf(Entry(p, CreateWidget(p).value));
            && (p.kind.BooleanKind? ==> s == Stage(BoolValue(p.kind.flag)))
            && (p.kind.NumericKind? ==> s == Stage(IntValue(p.kind.number)))
            && (p.kind.TextKind? ==> s == Stage(TextValue(p.kind.text)))
            && (p.kind.BlobKind? ==> s == Skip)
            && (p.kind.EnumKind? ==> (if |p.kind.constants.value| > 0 then s == CastFails else s == Skip))
  {
    if p.kind.NumericKind? {
      ParseIntToString(p.kind.number);
    }
  }
}

=== FILE: config_edit.dfy ===
/**
  Building the configuration screen's edit surface (`fetchAndDisplayProperties`
  and the kind dispatch of `createViewForProperty`): which properties get an
  input widget, what the widget initially shows, and the insertion-ordered
  property-to-widget map the apply pass walks. Also the guard of
  `manageBlobProperty`.
*/
module ConfigEdit {
  import opened Basics
  import opened KotlinText
  import opened ConfigTree

  /** The interactive view bound to a property; numeric and text properties both use an EditText. */
  datatype Widget =
    | SwitchView(checked: bool)
    | SpinnerView(position: int)
    | EditTextView(content: string)
    | BlobButton

  /** One entry of the property-to-view map. */
  datatype Entry = Entry(prop: Property, widget: Widget)

  /** Only supported, writable properties are ever offered for editing. */
  predicate IsEditable(p: Property) {
    p.supported && !p.readOnly
  }

  /**
    The spinner position right after its adapter is set and before the
    current value is looked up: the first item, or no position (-1) when the
    list is empty.
  */
  function SpinnerDefault(items: seq<string>): int {
    if |items| > 0 then 0 else -1
  }

  /**
    The initial spinner position of an enum property: the position of its
    current value when the constants contain it, otherwise the spinner's
    default.
  */
  function InitialSelection(constants: seq<string>, current: string): (r: int)
    ensures current in constants ==> 0 <= r < |constants| && constants[r] == current
    ensures current !in constants ==> r == SpinnerDefault(constants)
  {
    var i := IndexOf(constants, current);
    if i >= 0 then i else SpinnerDefault(constants)
  }

  /**
    `createViewForProperty`: the widget made for a property, or `None` when the
    screen shows nothing for it (an enum without constants, an unknown kind).
    Numeric values are shown as `Int.toString()` text.
  */
  function CreateWidget(p: Property): (r: Option<Widget>)
    ensures r.None? <==> p.kind.OtherKind? || (p.kind.EnumKind? && p.kind.constants.None?)
    ensures p.kind.BooleanKind? ==> r == Some(SwitchView(p.kind.flag))
    ensures p.kind.NumericKind? ==> r == Some(EditTextView(IntToString(p.kind.number)))
    ensures p.kind.TextKind? ==> r == Some(EditTextView(p.kind.text))
    ensures p.kind.BlobKind? ==> r == Some(BlobButton)
    ensures p.kind.EnumKind? && p.kind.constants.Some? ==>
              r == Some(SpinnerView(InitialSelection(p.kind.constants.value, p.kind.selected)))
  {
    match p.kind
    case BooleanKind(b) => Some(SwitchView(b))
    case EnumKind(constants, current) =>
      if constants.Some? then Some(SpinnerView(InitialSelection(constants.value, current))) else None
    case NumericKind(n) => Some(EditTextView(IntToString(n)))
    case TextKind(t) => Some(EditTextView(t))
    case BlobKind => Some(BlobButton)
    case OtherKind => None
  }

  /** Whether `p` ends up on the edit surface at all. */
  predicate GetsEntry(p: Property) {
    IsEditable(p) && CreateWidget(p).Some?
  }

  /**
    Reference edit surface: one entry per property that is editable and of a
    shown kind, in the order of `ps`.
  */
  function EditSurface(ps: seq<Property>): seq<Entry> {
    if |ps| == 0 then []
    else if GetsEntry(ps[0]) then [Entry(ps[0], CreateWidget(ps[0]).value)] + EditSurface(ps[1..])
    else EditSurface(ps[1..])
  }

  // ---------------------------------------------------------------------
  // The insertion-ordered map from property to view

  /** Position of the entry keyed by property `id`, if any. */
  function FindKey(es: seq<Entry>, id: int): (r: Option<nat>)
    ensures r.Some? ==> r.value < |es| && es[r.value].prop.id == id
    ensures r.None? <==> forall k :: 0 <= k < |es| ==> es[k].prop.id != id
  {
    if |es| == 0 then None
    else if es[|es| - 1].prop.id == id then Some(|es| - 1)
    else FindKey(es[..|es| - 1], id)
  }

  /** Appending a key leaves the lookup of every other key where it was. */
  lemma {:induction false} FindKeyAppend(es: seq<Entry>, e: Entry)
    ensures FindKey(es + [e], e.prop.id) == Some(|es|)
    ensures forall id :: id != e.prop.id ==> FindKey(es + [e], id) == FindKey(es, id)
  {
    assert (es + [e])[..|es|] == es;
  }

  /** Lookup depends only on the keys, position by position. */
  lemma {:induction false} FindKeySameKeys(a: seq<Entry>, b: seq<Entry>)
    requires |a| == |b| && forall k :: 0 <= k < |a| ==> a[k].prop.id == b[k].prop.id
    ensures forall id :: FindKey(a, id) == FindKey(b, id)
  {
    if |a| > 0 {
      FindKeySameKeys(a[..|a| - 1], b[..|b| - 1]);
    }
  }

  /**
    `propertyViewsMap[property] = view` on an insertion-ordered map: afterwards
    the key maps to the new view; every other key is found where it was, with
    its view; the keys already present keep their order and their key
    objects; and only a new key makes the map longer, by one entry at the end.
  */
  function Put(es: seq<Entry>, e: Entry): (r: seq<Entry>)
    ensures |r| == if FindKey(es, e.prop.id).Some? then |es| else |es| + 1
    ensures FindKey(r, e.prop.id).Some? && r[FindKey(r, e.prop.id).value].widget == e.widget
    ensures forall id :: id != e.prop.id ==> FindKey(r, id) == FindKey(es, id)
    ensures forall k :: 0 <= k < |es| ==> r[k].prop == es[k].prop
    ensures forall k :: 0 <= k < |es| && es[k].prop.id != e.prop.id ==> r[k] == es[k]
    ensures |r| > |es| ==> r[|es|] == e
  {
    match FindKey(es, e.prop.id)
    case None =>
      FindKeyAppend(es, e);
      es + [e]
    case Some(k) =>
      FindKeySameKeys(es, es[k := Entry(es[k].prop, e.widget)]);
      es[k := Entry(es[k].prop, e.widget)]
  }

  /**
    The loop of `fetchAndDisplayProperties` over the first `|ps|` properties:
    each editable property whose widget is created is put into the map.
  */
  function BuildEntries(ps: seq<Property>): seq<Entry> {
    if |ps| == 0 then []
    else
      var prev := BuildEntries(ps[..|ps| - 1]);
      var p := ps[|ps| - 1];
      if GetsEntry(p) then Put(prev, Entry(p, CreateWidget(p).value)) else prev
  }

  /** The edit surface of the whole tree under `root`. */
  function FetchEntries(root: Group): seq<Entry> {
    BuildEntries(Flatten(root))
  }

  predicate DistinctIds(ps: seq<Property>) {
    forall i, j :: 0 <= i < j < |ps| ==> ps[i].id != ps[j].id
  }

  // ---------------------------------------------------------------------
  // Lemmas

  /** A property has an entry iff it is listed, editable and of a shown kind, with the widget made for it. */
  lemma {:induction false} EditSurfaceMembers(ps: seq<Property>, e: Entry)
    ensures e in EditSurface(ps) <==> e.prop in ps && GetsEntry(e.prop) && CreateWidget(e.prop) == Some(e.widget)
  {
    if |ps| > 0 {
      EditSurfaceMembers(ps[1..], e);
      assert ps == [ps[0]] + ps[1..];
    }
  }

  /** The surface of a concatenation is the concatenation of the surfaces: entries keep list order. */
  lemma {:induction false} EditSurfaceAppend(a: seq<Property>, b: seq<Property>)
    ensures EditSurface(a + b) == EditSurface(a) + EditSurface(b)
  {
    if |a| == 0 {
      assert a + b == b;
    } else {
      assert (a + b)[1..] == a[1..] + b;
      EditSurfaceAppend(a[1..], b);
    }
  }

  lemma {:induction false} EntryPropsFromList(ps: seq<Property>, k: nat)
    requires k < |EditSurface(ps)|
    ensures EditSurface(ps)[k].prop in ps
  {
    EditSurfaceMembers(ps, EditSurface(ps)[k]);
  }

  /**
    When every property object in the list is distinct (the tree owns each
    property once), the insertion-ordered map holds exactly the reference edit
    surface, in flatten order.
  */
  lemma {:induction false} BuildEntriesIsEditSurface(ps: seq<Property>)
    requires DistinctIds(ps)
    ensures BuildEntries(ps) == EditSurface(ps)
  {
    if |ps| > 0 {
      var init := ps[..|ps| - 1];
      var p := ps[|ps| - 1];
      assert DistinctIds(init);
      BuildEntriesIsEditSurface(init);
      assert ps == init + [p];
      EditSurfaceAppend(init, [p]);
      assert EditSurface([p]) == (if GetsEntry(p) then [Entry(p, CreateWidget(p).value)] else []) by {
        assert [p][1..] == [];
      }
      if GetsEntry(p) {
        var es := EditSurface(init);
        forall k | 0 <= k < |es|
          ensures es[k].prop.id != p.id
        {
          EntryPropsFromList(init, k);
          var j :| 0 <= j < |init| && init[j] == es[k].prop;
          assert ps[j] == init[j];
        }
      }
    }
  }

  /**
    For a tree whose property ids are distinct, a property receives an edit
    entry iff it occurs in the tree, is supported, is writable and is of a
    kind the screen shows; entries follow flatten order.
  */
  lemma {:induction false} FetchEntriesMembers(root: Group, e: Entry)
    requires DistinctIds(Flatten(root))
    ensures FetchEntries(root) == EditSurface(Flatten(root))
    ensures e in FetchEntries(root) <==>
              && InTree(e.prop, root)
              && e.prop.supported && !e.prop.readOnly
              && CreateWidget(e.prop) == Some(e.widget)
  {
    BuildEntriesIsEditSurface(Flatten(root));
    EditSurfaceMembers(Flatten(root), e);
    FlattenMembers(root, e.prop);
  }

  // ---------------------------------------------------------------------
  // manageBlobProperty

  datatype BlobAction = BlobNotSupported | ManageBlob(name: string)

  /** The guard of `manageBlobProperty`: a missing or unsupported blob is refused. */
  function ManageBlobProperty(blob: Option<Property>): (r: BlobAction)
    ensures r.ManageBlob? <==> blob.Some? && blob.value.supported
    ensures r.ManageBlob? ==> r.name == blob.value.name
  {
    if blob.None? || !blob.value.supported then BlobNotSupported else ManageBlob(blob.value.name)
  }

  /**
    The button of a blob entry passes its own property, which reached the
    edit surface only by being supported: from the screen the refusal branch
    never fires.
  */
  lemma {:induction false} BlobEntriesAreManaged(root: Group, e: Entry)
    requires DistinctIds(Flatten(root))
    requires e in FetchEntries(root) && e.prop.kind.BlobKind?
    ensures e.widget == BlobButton
    ensures ManageBlobProperty(Some(e.prop)) == ManageBlob(e.prop.name)
  {
    FetchEntriesMembers(root, e);
  }
}

=== FILE: config_tree.dfy ===
/**
  The device configuration property tree as the configuration screen sees it:
  typed properties with support and read-only flags, grouped in a finite
  tree of property groups, and the depth-first flattening of that tree
  (`getAllProperties` in ConfigurationActivity).
*/
module ConfigTree {
  import opened Basics

  /**
    The kind of a property together with its current value. Enum constants
    are listed by name in declared order; `None` is a property whose
    `getEnumConstants()` returns null. `OtherKind` is any property class the
    screen does not recognise.
  */
  datatype Kind =
    | BooleanKind(flag: bool)
    | NumericKind(number: int)
    | TextKind(text: string)
    | EnumKind(constants: Option<seq<string>>, selected: string)
    | BlobKind
    | OtherKind

  /** A vendor configuration property; `id` stands for the property object's identity. */
  datatype Property = Property(id: int, name: string, kind: Kind, supported: bool, readOnly: bool)

  /** A property group: its own properties and its child groups, both in declared order. */
  datatype Group = Group(name: string, properties: seq<Property>, groups: seq<Group>)

  /**
    `getAllProperties`: the group's own properties, then the flattening of
    each child group in child order.
  */
  function Flatten(g: Group): seq<Property>
    decreases g, 1
  {
    g.properties + FlattenGroups(g.groups)
  }

  /** The flattenings of `gs`, concatenated in order. */
  function FlattenGroups(gs: seq<Group>): seq<Property>
    decreases gs, 0
  {
    if |gs| == 0 then [] else Flatten(gs[0]) + FlattenGroups(gs[1..])
  }

  /** Number of properties declared anywhere in the tree. */
  function Size(g: Group): nat
    decreases g, 1
  {
    |g.properties| + SizeGroups(g.groups)
  }

  function SizeGroups(gs: seq<Group>): nat
    decreases gs, 0
  {
    if |gs| == 0 then 0 else Size(gs[0]) + SizeGroups(gs[1..])
  }

  /** `p` is declared in `g` itself or somewhere below one of its child groups. */
  predicate InTree(p: Property, g: Group)
    decreases g, 1
  {
    p in g.properties || InSomeGroup(p, g.groups)
  }

  predicate InSomeGroup(p: Property, gs: seq<Group>)
    decreases gs, 0
  {
    exists i :: 0 <= i < |gs| && InTree(p, gs[i])
  }

  /** The flattened list is exactly as long as the number of declared properties. */
  lemma {:induction false} FlattenLength(g: Group)
    ensures |Flatten(g)| == Size(g)
    decreases g, 1
  {
    FlattenGroupsLength(g.groups);
  }

  lemma {:induction false} FlattenGroupsLength(gs: seq<Group>)
    ensures |FlattenGroups(gs)| == SizeGroups(gs)
    decreases gs, 0
  {
    if |gs| > 0 {
      FlattenLength(gs[0]);
      FlattenGroupsLength(gs[1..]);
    }
  }

  /** Flattening lists every property of the tree and nothing else. */
  lemma {:induction false} FlattenMembers(g: Group, p: Property)
    ensures p in Flatten(g) <==> InTree(p, g)
    decreases g, 1
  {
    FlattenGroupsMembers(g.groups, p);
  }

  lemma {:induction false} FlattenGroupsMembers(gs: seq<Group>, p: Property)
    ensures p in FlattenGroups(gs) <==> InSomeGroup(p, gs)
    decreases gs, 0
  {
    if |gs| > 0 {
      FlattenMembers(gs[0], p);
      FlattenGroupsMembers(gs[1..], p);
      if InSomeGroup(p, gs[1..]) {
        var i :| 0 <= i < |gs[1..]| && InTree(p, gs[1..][i]);
        assert InTree(p, gs[i + 1]);
      }
      if InSomeGroup(p, gs) && !InTree(p, gs[0]) {
        var i :| 0 <= i < |gs| && InTree(p, gs[i]);
        assert InTree(p, gs[1..][i - 1]);
      }
    }
  }

  lemma {:induction false} FlattenGroupsAppend(a: seq<Group>, b: seq<Group>)
    ensures FlattenGroups(a + b) == FlattenGroups(a) + FlattenGroups(b)
  {
    if |a| == 0 {
      assert a + b == b;
    } else {
      assert (a + b)[1..] == a[1..] + b;
      FlattenGroupsAppend(a[1..], b);
    }
  }

  /**
    Declared order: the flattened list starts with the group's own properties,
    and child group `i` contributes its whole flattening as one contiguous
    run that begins after the own properties and all earlier children.
  */
  lemma {:induction false} FlattenOrder(g: Group, i: nat)
    requires i < |g.groups|
    ensures Flatten(g)[..|g.properties|] == g.properties
    ensures var start := |g.properties| + |FlattenGroups(g.groups[..i])|;
            var child := Flatten(g.groups[i]);
            start + |child| <= |Flatten(g)| && Flatten(g)[start..start + |child|] == child
  {
    var gs := g.groups;
    assert gs == gs[..i] + [gs[i]] + gs[i + 1..];
    FlattenGroupsAppend(gs[..i] + [gs[i]], gs[i + 1..]);
    FlattenGroupsAppend(gs[..i], [gs[i]]);
    assert FlattenGroups([gs[i]]) == Flatten(gs[i]) by {
      assert [gs[i]][1..] == [];
    }
    var pre := g.properties + FlattenGroups(gs[..i]);
    assert Flatten(g) == pre + Flatten(gs[i]) + FlattenGroups(gs[i + 1..]);
  }
}

=== FILE: inventory.dfy ===
/**
  The inventory screen of the main activity: a list of scanned items keyed by
  barcode and a pending action chosen with the Add / Remove / Update buttons.
  A scan applies the pending action to the list and always resets it to NONE.
*/
module Inventory {
  import opened Basics

  /** `InventoryItem`: quantities are unbounded integers here. */
  datatype Item = Item(barcode: string, name: string, quantity: int)

  datatype ActionType = NONE | ADD | REMOVE | UPDATE

  /** The three buttons that choose the action for the next scan. */
  datatype Button = AddButton | RemoveButton | UpdateButton

  datatype State = State(items: seq<Item>, action: ActionType)

  /** Everything that changes the modelled state: a button press or a decoded barcode. */
  datatype Event = Press(button: Button) | Scanned(data: string)

  /** The name given to an item created by a scan. */
  const DefaultName: string := "Item Name"

  /** The activity starts with an empty list and no pending action. */
  function Initial(): (s: State)
    ensures s.action == NONE && |s.items| == 0
  {
    State([], NONE)
  }

  // ---------------------------------------------------------------------
  // Reference views of the list

  /** The set of barcodes present in the list. */
  function Barcodes(items: seq<Item>): set<string> {
    set i | 0 <= i < |items| :: items[i].barcode
  }

  /** Sum of the quantities of every item carrying `code`. */
  function Stock(items: seq<Item>, code: string): int {
    if |items| == 0 then 0
    else Stock(items[..|items| - 1], code) + Share(items[|items| - 1], code)
  }

  function Share(it: Item, code: string): int {
    if it.barcode == code then it.quantity else 0
  }

  /** Barcodes are pairwise distinct and every quantity is at least one. */
  predicate Valid(items: seq<Item>) {
    && (forall i, j :: 0 <= i < j < |items| ==> items[i].barcode != items[j].barcode)
    && (forall i :: 0 <= i < |items| ==> items[i].quantity >= 1)
  }

  // ---------------------------------------------------------------------
  // The list operations

  /** `inventoryList.find { it.barcode == barcode }`: the first matching position. */
  function Find(items: seq<Item>, code: string): (r: Option<nat>)
    ensures r.Some? ==> r.value < |items| && items[r.value].barcode == code
    ensures r.Some? ==> forall k :: 0 <= k < r.value ==> items[k].barcode != code
    ensures r.None? <==> code !in Barcodes(items)
  {
    if |items| == 0 then None
    else if items[0].barcode == code then Some(0)
    else
      var rest := Find(items[1..], code);
      assert Barcodes(items) == {items[0].barcode} + Barcodes(items[1..]) by {
        forall c | c in Barcodes(items) ensures c in {items[0].barcode} + Barcodes(items[1..]) {
          var i :| 0 <= i < |items| && items[i].barcode == c;
          if i > 0 { assert items[1..][i - 1].barcode == c; }
        }
      }
      if rest.None? then None else Some(rest.value + 1)
  }

  /** The item at `k` with its quantity raised by one (`quantity += 1` on the shared object). */
  function Bump(items: seq<Item>, k: nat): seq<Item>
    requires k < |items|
  {
    items[k := items[k].(quantity := items[k].quantity + 1)]
  }

  /**
    `addItemToInventory`: on a present barcode, that item's quantity goes up
    by one and the length, the order, the item's barcode and name and every
    other item are kept; on an absent barcode a fresh item with quantity one
    is appended.
  */
  function Add(items: seq<Item>, code: string): (r: seq<Item>)
    ensures code in Barcodes(items) ==>
              var k := Find(items, code).value;
              && |r| == |items|
              && r[k] == Item(code, items[k].name, items[k].quantity + 1)
              && (forall j :: 0 <= j < |items| && j != k ==> r[j] == items[j])
    ensures code !in Barcodes(items) ==> r == items + [Item(code, DefaultName, 1)]
  {
    match Find(items, code)
    case Some(k) => Bump(items, k)
    case None => items + [Item(code, DefaultName, 1)]
  }

  /**
    Kotlin's `MutableList.remove(element)`: drops the first element equal to
    `x` (data-class equality compares every field), or nothing.
  */
  function RemoveFirst(items: seq<Item>, x: Item): (r: seq<Item>)
    ensures x !in items ==> r == items
    ensures x in items ==> |r| == |items| - 1
  {
    if |items| == 0 then []
    else if items[0] == x then items[1..]
    else [items[0]] + RemoveFirst(items[1..], x)
  }

  /** `removeItemFromInventory`: finds the item by barcode, then removes it by equality. */
  function Remove(items: seq<Item>, code: string): seq<Item> {
    match Find(items, code)
    case Some(k) => RemoveFirst(items, items[k])
    case None => items
  }

  /** `updateItemInInventory`: like Add on a present barcode, but never inserts. */
  function Update(items: seq<Item>, code: string): seq<Item> {
    match Find(items, code)
    case Some(k) => Bump(items, k)
    case None => items
  }

  // ---------------------------------------------------------------------
  // The state machine

  /** A button handler: chooses the action and leaves the list alone. */
  function PressButton(s: State, b: Button): (r: State)
    ensures r.items == s.items
    ensures r.action != NONE
    ensures b.AddButton? <==> r.action == ADD
    ensures b.RemoveButton? <==> r.action == REMOVE
  {
    match b
    case AddButton => s.(action := ADD)
    case RemoveButton => s.(action := REMOVE)
    case UpdateButton => s.(action := UPDATE)
  }

  /** `handleScannedData`: dispatch on the pending action, then reset it to NONE. */
  function Scan(s: State, data: string): (r: State)
    ensures r.action == NONE
    ensures s.action == NONE ==> r.items == s.items
  {
    var items :=
      match s.action
      case ADD => Add(s.items, data)
      case REMOVE => Remove(s.items, data)
      case UPDATE => Update(s.items, data)
      case NONE => s.items;
    State(items, NONE)
  }

  function Step(s: State, e: Event): State {
    match e
    case Press(b) => PressButton(s, b)
    case Scanned(data) => Scan(s, data)
  }

  /** The state after a sequence of events, applied in order. */
  function Run(s: State, es: seq<Event>): State
    decreases |es|
  {
    if |es| == 0 then s else Run(Step(s, es[0]), es[1..])
  }

  // ---------------------------------------------------------------------
  // Stock bookkeeping

  lemma {:induction false} StockAppend(items: seq<Item>, it: Item, code: string)
    ensures Stock(items + [it], code) == Stock(items, code) + Share(it, code)
  {
    assert (items + [it])[..|items|] == items;
  }

  /** Replacing one item changes the stock by the difference of the two shares. */
  lemma {:induction false} StockReplace(items: seq<Item>, k: nat, it: Item, code: string)
    requires k < |items|
    ensures Stock(items[k := it], code) == Stock(items, code) - Share(items[k], code) + Share(it, code)
    decreases |items|
  {
    var n := |items| - 1;
    if k < n {
      assert items[k := it][..n] == items[..n][k := it];
      StockReplace(items[..n], k, it, code);
    } else {
      assert items[k := it][..n] == items[..n];
    }
  }

  /** Deleting position `k` removes exactly that item's share. */
  lemma {:induction false} StockDelete(items: seq<Item>, k: nat, code: string)
    requires k < |items|
    ensures Stock(items[..k] + items[k + 1..], code) == Stock(items, code) - Share(items[k], code)
    decreases |items|
  {
    var n := |items| - 1;
    if k < n {
      var rest := items[..n];
      assert (items[..k] + items[k + 1..]) == (rest[..k] + rest[k + 1..]) + [items[n]];
      StockAppend(rest[..k] + rest[k + 1..], items[n], code);
      StockDelete(rest, k, code);
    } else {
      assert items[..k] + items[k + 1..] == items[..n];
    }
  }

  /** A barcode that occurs nowhere has no stock. */
  lemma {:induction false} StockAbsent(items: seq<Item>, code: string)
    requires code !in Barcodes(items)
    ensures Stock(items, code) == 0
    decreases |items|
  {
    if |items| > 0 {
      var n := |items| - 1;
      assert Barcodes(items[..n]) <= Barcodes(items) by {
        forall c | c in Barcodes(items[..n]) ensures c in Barcodes(items) {
          var i :| 0 <= i < n && items[..n][i].barcode == c;
          assert items[i].barcode == c;
        }
      }
      assert items[n].barcode in Barcodes(items);
      StockAbsent(items[..n], code);
    }
  }

  // ---------------------------------------------------------------------
  // What each operation does to the list

  /**
    Kotlin's `remove(item)` on the item `find` returned deletes exactly that
    position: no earlier item can be equal to it, since none has its barcode.
  */
  lemma {:induction false} RemoveDeletesFound(items: seq<Item>, code: string)
    requires Find(items, code).Some?
    ensures var k := Find(items, code).value;
            Remove(items, code) == items[..k] + items[k + 1..]
  {
    var k := Find(items, code).value;
    RemoveFirstAt(items, k);
  }

  lemma {:induction false} RemoveFirstAt(items: seq<Item>, k: nat)
    requires k < |items|
    requires forall j :: 0 <= j < k ==> items[j] != items[k]
    ensures RemoveFirst(items, items[k]) == items[..k] + items[k + 1..]
    decreases k
  {
    if k > 0 {
      var tail := items[1..];
      assert tail[k - 1] == items[k];
      RemoveFirstAt(tail, k - 1);
      assert items[..k] + items[k + 1..] == [items[0]] + (tail[..k - 1] + tail[k..]);
    }
  }

  /** Add raises the stock of the scanned barcode by exactly one and no other stock. */
  lemma {:induction false} AddStock(items: seq<Item>, code: string, other: string)
    ensures Stock(Add(items, code), code) == Stock(items, code) + 1
    ensures other != code ==> Stock(Add(items, code), other) == Stock(items, other)
    ensures Barcodes(Add(items, code)) == Barcodes(items) + {code}
  {
    match Find(items, code)
    case Some(k) =>
      var it := items[k].(quantity := items[k].quantity + 1);
      StockReplace(items, k, it, code);
      StockReplace(items, k, it, other);
      BarcodesReplace(items, k, it);
    case None =>
      var it := Item(code, DefaultName, 1);
      StockAppend(items, it, code);
      StockAppend(items, it, other);
      assert Barcodes(items + [it]) == Barcodes(items) + {code} by {
        forall c | c in Barcodes(items) ensures c in Barcodes(items + [it]) {
          var i :| 0 <= i < |items| && items[i].barcode == c;
          assert (items + [it])[i].barcode == c;
        }
        assert (items + [it])[|items|].barcode == code;
      }
  }

  /** Replacing an item by one with the same barcode keeps the barcode set. */
  lemma {:induction false} BarcodesReplace(items: seq<Item>, k: nat, it: Item)
    requires k < |items| && it.barcode == items[k].barcode
    ensures Barcodes(items[k := it]) == Barcodes(items)
  {
    forall c | c in Barcodes(items) ensures c in Barcodes(items[k := it]) {
      var i :| 0 <= i < |items| && items[i].barcode == c;
      assert items[k := it][i].barcode == c;
    }
  }

  /**
    Update on a present barcode is exactly Add on it (only the found item
    changes, and only its quantity, by one), so it raises that barcode's
    stock by one; it never inserts, and leaves the list untouched when the
    barcode is absent.
  */
  lemma {:induction false} UpdateEffect(items: seq<Item>, code: string, other: string)
    ensures code in Barcodes(items) ==> Update(items, code) == Add(items, code)
    ensures code !in Barcodes(items) ==> Update(items, code) == items
    ensures code in Barcodes(items) ==> Stock(Update(items, code), code) == Stock(items, code) + 1
    ensures other != code ==> Stock(Update(items, code), other) == Stock(items, other)
    ensures Barcodes(Update(items, code)) == Barcodes(items)
    ensures |Update(items, code)| == |items|
  {
    match Find(items, code)
    case Some(k) =>
      var it := items[k].(quantity := items[k].quantity + 1);
      StockReplace(items, k, it, code);
      StockReplace(items, k, it, other);
      BarcodesReplace(items, k, it);
    case None =>
  }

  /**
    Remove on a present barcode deletes the first item carrying it, keeping the
    others in order; on an absent barcode the list is unchanged. The stock of
    every other barcode is kept.
  */
  lemma {:induction false} RemoveEffect(items: seq<Item>, code: string, other: string)
    ensures code !in Barcodes(items) ==> Remove(items, code) == items
    ensures code in Barcodes(items) ==>
              var k := Find(items, code).value;
              Remove(items, code) == items[..k] + items[k + 1..]
    ensures other != code ==> Stock(Remove(items, code), other) == Stock(items, other)
  {
    match Find(items, code)
    case Some(k) =>
      RemoveDeletesFound(items, code);
      StockDelete(items, k, other);
    case None =>
  }

  /** In a valid list, Remove takes the barcode out of the list altogether. */
  lemma {:induction false} RemoveClears(items: seq<Item>, code: string)
    requires Valid(items)
    ensures code !in Barcodes(Remove(items, code))
    ensures Stock(Remove(items, code), code) == 0
  {
    var r := Remove(items, code);
    match Find(items, code)
    case Some(k) =>
      RemoveDeletesFound(items, code);
      forall c | c in Barcodes(r) ensures c != code {
        var i :| 0 <= i < |r| && r[i].barcode == c;
        if i < k { assert r[i] == items[i]; } else { assert r[i] == items[i + 1]; }
      }
      StockAbsent(r, code);
    case None =>
      StockAbsent(r, code);
  }

  // ---------------------------------------------------------------------
  // Invariants

  lemma {:induction false} AddKeepsValid(items: seq<Item>, code: string)
    requires Valid(items)
    ensures Valid(Add(items, code))
  {
    match Find(items, code)
    case Some(k) =>
    case None =>
      var r := items + [Item(code, DefaultName, 1)];
      forall i, j | 0 <= i < j < |r| ensures r[i].barcode != r[j].barcode {
        if j == |items| {
          assert items[i].barcode in Barcodes(items);
        }
      }
  }

  lemma {:induction false} UpdateKeepsValid(items: seq<Item>, code: string)
    requires Valid(items)
    ensures Valid(Update(items, code))
  {
  }

  lemma {:induction false} RemoveKeepsValid(items: seq<Item>, code: string)
    requires Valid(items)
    ensures Valid(Remove(items, code))
  {
    match Find(items, code)
    case Some(k) =>
      RemoveDeletesFound(items, code);
      DeleteKeepsValid(items, k);
    case None =>
  }

  lemma {:induction false} DeleteKeepsValid(items: seq<Item>, k: nat)
    requires Valid(items) && k < |items|
    ensures Valid(items[..k] + items[k + 1..])
  {
    var r := items[..k] + items[k + 1..];
    assert forall i :: 0 <= i < k ==> r[i] == items[i];
    assert forall i :: k <= i < |r| ==> r[i] == items[i + 1];
    forall i, j | 0 <= i < j < |r| ensures r[i].barcode != r[j].barcode {
      var i' := if i < k then i else i + 1;
      var j' := if j < k then j else j + 1;
      assert r[i] == items[i'] && r[j] == items[j'];
    }
  }

  /** Every event keeps the list valid: barcodes stay distinct and quantities stay positive. */
  lemma {:induction false} StepKeepsValid(s: State, e: Event)
    requires Valid(s.items)
    ensures Valid(Step(s, e).items)
  {
    match e
    case Press(_) =>
    case Scanned(data) =>
      match s.action
      case ADD => AddKeepsValid(s.items, data);
      case REMOVE => RemoveKeepsValid(s.items, data);
      case UPDATE => UpdateKeepsValid(s.items, data);
      case NONE =>
  }

  /** Any sequence of presses and scans from a valid state ends in a valid state. */
  lemma {:induction false} RunKeepsValid(s: State, es: seq<Event>)
    requires Valid(s.items)
    ensures Valid(Run(s, es).items)
    decreases |es|
  {
    if |es| > 0 {
      StepKeepsValid(s, es[0]);
      RunKeepsValid(Step(s, es[0]), es[1..]);
    }
  }

  /** Everything reachable from the initial state is valid. */
  lemma {:induction false} ReachableIsValid(es: seq<Event>)
    ensures Valid(Run(Initial(), es).items)
  {
    RunKeepsValid(Initial(), es);
  }

  /**
    A scan consumes the pending action: a second scan with no button press in
    between changes nothing.
  */
  lemma {:induction false} SecondScanIsIgnored(s: State, first: string, second: string)
    ensures Scan(Scan(s, first), second) == Scan(s, first)
  {
  }

  /** A scan with a pending action performs exactly that action on the list. */
  lemma {:induction false} ScanDispatches(s: State, b: Button, data: string)
    ensures var r := Scan(PressButton(s, b), data);
            && r.action == NONE
            && (b.AddButton? ==> r.items == Add(s.items, data))
            && (b.RemoveButton? ==> r.items == Remove(s.items, data))
            && (b.UpdateButton? ==> r.items == Update(s.items, data))
  {
  }
}

=== FILE: keyboard_remap.dfy ===
/**
  The keyboard screen's commands to the keyboard and power managers: which
  mapping, if any, `applyKeyRemapping` and the three map dialogs issue, what
  `configurePTT` issues, and the reset / delete / lock actions. Manager calls
  are recorded as a list of commands; looking a key-code name up and
  resolving a package's launch intent are parameters.
*/
module KeyboardRemap {
  import opened Basics
  import opened KotlinText
  import opened KeyboardSettings

  /**
    The vendor's virtual scan codes the screen can name, and the code 0 that
    every other name maps to. The vendor's numeric values are not part of
    this model; only which names share a code matters.
  */
  datatype ScanCode = LeftTrigger | RightTrigger | AutoscanTrigger | MotionTrigger | NoScanCode

  /** An intent: one built from an action string, or a package's resolved launch intent. */
  datatype Intent = ActionIntent(action: string) | LaunchIntent(id: int)

  /** A call into the keyboard or power manager. */
  datatype Command =
    | LockInputCommand(locked: bool)
    | ClearAllMappings
    | MapKeyCode(source: ScanCode, keyCode: int)
    | MapUnicode(source: ScanCode, unit: int)   // a Kotlin `Char`: one UTF-16 code unit
    | MapIntent(source: ScanCode, intent: Intent)
    | ActivatePttWakeup

  /** Looks a key-code constant up by its name, as the reflective field lookup does; `None` when it fails. */
  type KeyCodeLookup = string -> Option<int>

  /** The package manager's launch intent for a package, if it has one. */
  type LaunchLookup = string -> Option<Intent>

  const PttLeftName: string := "VSCAN_PTT_TRIGGER_LEFT"
  const PttRightName: string := "VSCAN_PTT_TRIGGER_RIGHT"

  /**
    `getScanCodeValue`: four names have their own scan code; every other
    string, the two push-to-talk names included, maps to 0.
  */
  function ScanCodeValue(name: string): (r: ScanCode)
    ensures r == LeftTrigger <==> name == "VSCAN_LEFT_TRIGGER"
    ensures r == RightTrigger <==> name == "VSCAN_RIGHT_TRIGGER"
    ensures r == AutoscanTrigger <==> name == "VSCAN_AUTOSCAN_TRIGGER"
    ensures r == MotionTrigger <==> name == "VSCAN_MOTION_TRIGGER"
  {
    if name == "VSCAN_LEFT_TRIGGER" then LeftTrigger
    else if name == "VSCAN_RIGHT_TRIGGER" then RightTrigger
    else if name == "VSCAN_AUTOSCAN_TRIGGER" then AutoscanTrigger
    else if name == "VSCAN_MOTION_TRIGGER" then MotionTrigger
    else NoScanCode
  }

  /**
    Of the six keys the screen offers, exactly the two push-to-talk triggers
    fall through to scan code 0; the other four get pairwise distinct codes.
  */
  lemma {:induction false} OfferedScanCodes(i: int, j: int)
    requires 0 <= i < |ScanCodeNames| && 0 <= j < |ScanCodeNames|
    ensures ScanCodeValue(ScanCodeNames[i]) == NoScanCode <==> i == 2 || i == 3
    ensures ScanCodeNames[2] == PttLeftName && ScanCodeNames[3] == PttRightName
    ensures i != j && ScanCodeValue(ScanCodeNames[i]) == ScanCodeValue(ScanCodeNames[j]) ==>
              {i, j} == {2, 3}
  {
  }

  // ---------------------------------------------------------------------
  // applyKeyRemapping

  /**
    The dispatch on the remap type once the three settings are read: a
    key code is mapped only when its name resolves; a Unicode target maps
    its first `Char` (UTF-16 code unit) and an empty one maps nothing; an intent target is
    mapped as an action, with no check for emptiness; an unknown type
    maps nothing.
  */
  function Remap(sourceKey: string, remapType: string, target: string, keyCodeOf: KeyCodeLookup): (r: seq<Command>)
    ensures |r| <= 1
    ensures remapType == "Keycode" ==>
              (r != [] <==> keyCodeOf(target).Some?)
              && (r != [] ==> r[0] == MapKeyCode(ScanCodeValue(sourceKey), keyCodeOf(target).value))
    ensures remapType == "Unicode" ==>
              (r != [] <==> target != "")
              && (r != [] ==> r[0] == MapUnicode(ScanCodeValue(sourceKey), FirstUnit(target)))
    ensures remapType == "Intent" ==> r == [MapIntent(ScanCodeValue(sourceKey), ActionIntent(target))]
    ensures remapType !in RemapTypes ==> r == []
  {
    var source := ScanCodeValue(sourceKey);
    if remapType == "Keycode" then
      match keyCodeOf(target)
      case Some(k) => [MapKeyCode(source, k)]
      case None => []
    else if remapType == "Unicode" then
      if |target| > 0 then [MapUnicode(source, FirstUnit(target))] else []
    else if remapType == "Intent" then
      [MapIntent(source, ActionIntent(target))]
    else []
  }

  /**
    `applyKeyRemapping`: read the source key, remap type and target with
    their load defaults, then dispatch.
  */
  function ApplyKeyRemapping(prefs: Prefs, keyCodeOf: KeyCodeLookup): (r: Result<seq<Command>, PrefError>)
    ensures r.Err? ==> r.error.key in prefs
    ensures r.Ok? ==> |r.value| <= 1
  {
    var sourceKey :- LoadText(prefs, SourceKey);
    var remapType :- LoadText(prefs, RemapType);
    var target :- LoadText(prefs, Target);
    Ok(Remap(sourceKey, remapType, target, keyCodeOf))
  }

  /**
    The remapping reads exactly the stored source key, remap type and
    target: it fails only when one of them is unreadable, otherwise issues
    `Remap` of the three loaded values, and a well-typed file never fails.
  */
  lemma {:induction false} ApplyReadsStoredSettings(prefs: Prefs, keyCodeOf: KeyCodeLookup)
    ensures ApplyKeyRemapping(prefs, keyCodeOf).Ok? <==>
              LoadText(prefs, SourceKey).Ok? && LoadText(prefs, RemapType).Ok? && LoadText(prefs, Target).Ok?
    ensures ApplyKeyRemapping(prefs, keyCodeOf).Ok? ==>
              ApplyKeyRemapping(prefs, keyCodeOf).value
                == Remap(LoadText(prefs, SourceKey).value, LoadText(prefs, RemapType).value,
                         LoadText(prefs, Target).value, keyCodeOf)
    ensures WellTyped(prefs) ==> ApplyKeyRemapping(prefs, keyCodeOf).Ok?
  {
    if WellTyped(prefs) {
      WellTypedLoadsEach(prefs);
    }
  }

  /**
    With nothing stored, the pass falls back to the first offered key and
    the Keycode type, and looks up the empty target.
  */
  lemma {:induction false} ApplyWithDefaults(keyCodeOf: KeyCodeLookup)
    ensures ApplyKeyRemapping(map[], keyCodeOf)
              == Ok(if keyCodeOf("").Some? then [MapKeyCode(LeftTrigger, keyCodeOf("").value)] else [])
  {
    var empty: Prefs := map[];
    EmptyLoadsDefaults(empty);
    assert Default(TextPref(SourceKey)).text == "VSCAN_LEFT_TRIGGER";
    assert Default(TextPref(RemapType)).text == "Keycode";
    assert Default(TextPref(Target)).text == "";
  }

  /** The target field loses focus: the trimmed text is saved, then the remapping is applied. */
  function LeaveTarget(prefs: Prefs, text: string, keyCodeOf: KeyCodeLookup): Result<seq<Command>, PrefError> {
    ApplyKeyRemapping(LeaveTextField(prefs, TargetField, text), keyCodeOf)
  }

  /**
    Through the target field, the remapping always sees the trimmed text: a
    Unicode mapping maps the first unit of the trimmed text, whose first
    character is never whitespace, and an intent mapping carries the trimmed
    action.
  */
  lemma {:induction false} LeaveTargetUsesTrimmed(prefs: Prefs, text: string, keyCodeOf: KeyCodeLookup)
    requires WellTyped(prefs)
    ensures LeaveTarget(prefs, text, keyCodeOf).Ok?
    ensures forall c :: c in LeaveTarget(prefs, text, keyCodeOf).value && c.MapUnicode? ==>
              |Trim(text)| > 0 && c.unit == FirstUnit(Trim(text)) && !IsWhitespace(Trim(text)[0])
    ensures forall c :: c in LeaveTarget(prefs, text, keyCodeOf).value && c.MapIntent? ==>
              c.intent == ActionIntent(Trim(text))
    ensures forall c :: c in LeaveTarget(prefs, text, keyCodeOf).value && c.MapKeyCode? ==>
              keyCodeOf(Trim(text)) == Some(c.keyCode)
  {
    var cs := TargetFieldApplies(prefs, text, keyCodeOf);
    forall c | c in cs && c.MapUnicode?
      ensures |Trim(text)| > 0 && c.unit == FirstUnit(Trim(text)) && !IsWhitespace(Trim(text)[0])
    {
      assert c == cs[0];
    }
  }

  /**
    Leaving the target field dispatches on the source key and remap type
    already stored, with the trimmed text as the target.
  */
  lemma {:induction false} TargetFieldApplies(prefs: Prefs, text: string, keyCodeOf: KeyCodeLookup)
    returns (cs: seq<Command>)
    requires WellTyped(prefs)
    ensures LeaveTarget(prefs, text, keyCodeOf) == Ok(cs)
    ensures LoadText(prefs, SourceKey).Ok? && LoadText(prefs, RemapType).Ok?
    ensures cs == Remap(LoadText(prefs, SourceKey).value, LoadText(prefs, RemapType).value, Trim(text), keyCodeOf)
  {
    var p := LeaveTextField(prefs, TargetField, text);
    assert Load(p, TextPref(SourceKey)) == Load(prefs, TextPref(SourceKey));
    SameLoadSameText(p, prefs, SourceKey);
    assert Load(p, TextPref(RemapType)) == Load(prefs, TextPref(RemapType));
    SameLoadSameText(p, prefs, RemapType);
    StoredTextReads(p, Target, Trim(text));
    WellTypedLoadsEach(prefs);
    cs := Remap(LoadText(prefs, SourceKey).value, LoadText(prefs, RemapType).value, Trim(text), keyCodeOf);
  }

  // ---------------------------------------------------------------------
  // The map dialogs

  /** The key-code dialog: the entered name is trimmed, then looked up. */
  function KeyCodeDialog(selected: string, text: string, keyCodeOf: KeyCodeLookup): (r: seq<Command>)
    ensures r != [] <==> keyCodeOf(Trim(text)).Some?
    ensures r != [] ==> r == [MapKeyCode(ScanCodeValue(selected), keyCodeOf(Trim(text)).value)]
  {
    match keyCodeOf(Trim(text))
    case Some(k) => [MapKeyCode(ScanCodeValue(selected), k)]
    case None => []
  }

  /** The Unicode dialog: the text is not trimmed; a non-empty text maps its first `Char` (UTF-16 code unit). */
  function UnicodeDialog(selected: string, text: string): (r: seq<Command>)
    ensures r == [] <==> text == ""
    ensures r != [] ==> r == [MapUnicode(ScanCodeValue(selected), FirstUnit(text))]
  {
    if |text| > 0 then [MapUnicode(ScanCodeValue(selected), FirstUnit(text))] else []
  }

  /** The intent dialog: the text is trimmed, and an empty action maps nothing. */
  function IntentDialog(selected: string, text: string): (r: seq<Command>)
    ensures r == [] <==> Trim(text) == ""
    ensures r != [] ==> r == [MapIntent(ScanCodeValue(selected), ActionIntent(Trim(text)))]
  {
    var action := Trim(text);
    if |action| > 0 then [MapIntent(ScanCodeValue(selected), ActionIntent(action))] else []
  }

  /** The intent dialog issues nothing exactly when the input is all whitespace. */
  lemma {:induction false} IntentDialogGuard(selected: string, text: string)
    ensures IntentDialog(selected, text) == [] <==> forall k :: 0 <= k < |text| ==> IsWhitespace(text[k])
  {
    TrimEmpty(text);
  }

  /**
    The two guards differ on blank input: a single space is mapped as a
    Unicode character but refused as an intent action.
  */
  lemma {:induction false} BlankInputGuards(selected: string)
    ensures UnicodeDialog(selected, " ") == [MapUnicode(ScanCodeValue(selected), 0x20)]
    ensures IntentDialog(selected, " ") == []
  {
    TrimEmpty(" ");
  }

  /**
    A character outside the Basic Multilingual Plane is two `Char`s in
    Kotlin, and only the first, its high surrogate, is mapped: for U+1F600
    that is U+D83D, which together with the unit left behind would decode
    back to the character.
  */
  lemma {:induction false} SupplementaryCharMapsHighSurrogate(selected: string)
    ensures UnicodeDialog(selected, "\U{1F600}") == [MapUnicode(ScanCodeValue(selected), 0xD83D)]
    ensures Utf16Units('\U{1F600}') == [0xD83D, 0xDE00]
    ensures Utf16Decode([0xD83D, 0xDE00]) == 0x1F600
  {
    Utf16RoundTrip('\U{1F600}');
  }

  /**
    The dialogs agree with the stored-settings path: the key-code dialog
    issues what applying a trimmed Keycode target would, and the Unicode
    dialog what applying an untrimmed Unicode target would.
  */
  lemma {:induction false} DialogsMatchRemap(selected: string, text: string, keyCodeOf: KeyCodeLookup)
    ensures KeyCodeDialog(selected, text, keyCodeOf) == Remap(selected, "Keycode", Trim(text), keyCodeOf)
    ensures UnicodeDialog(selected, text) == Remap(selected, "Unicode", text, keyCodeOf)
    ensures Trim(text) != "" ==> IntentDialog(selected, text) == Remap(selected, "Intent", Trim(text), keyCodeOf)
  {
  }

  // ---------------------------------------------------------------------
  // configurePTT

  datatype PttOutcome = PttConfigured | AppNotFound | AppNotConfigured | PttFailed

  datatype PttResult = PttResult(commands: seq<Command>, outcome: PttOutcome)

  /**
    `configurePTT`: the push-to-talk wake-up source is activated first; then,
    only when a walkie-talkie package is stored and has a launch intent, that
    intent is mapped to each of the two push-to-talk names in turn. A stored
    value of the wrong type is caught and reported as a failure after the
    wake-up call.
  */
  function ConfigurePtt(prefs: Prefs, launchIntentFor: LaunchLookup): (r: PttResult)
    ensures |r.commands| > 0 && r.commands[0] == ActivatePttWakeup
    ensures r.outcome == PttConfigured <==> |r.commands| > 1
    ensures r.outcome == PttConfigured <==>
              && LoadText(prefs, WalkieTalkieApp).Ok?
              && LoadText(prefs, WalkieTalkieApp).value != ""
              && launchIntentFor(LoadText(prefs, WalkieTalkieApp).value).Some?
    ensures r.outcome == PttFailed <==> LoadText(prefs, WalkieTalkieApp).Err?
  {
    var wake := [ActivatePttWakeup];
    match LoadText(prefs, WalkieTalkieApp)
    case Err(_) => PttResult(wake, PttFailed)
    case Ok(app) =>
      if |app| == 0 then PttResult(wake, AppNotConfigured)
      else
        match launchIntentFor(app)
        case None => PttResult(wake, AppNotFound)
        case Some(intent) =>
          PttResult(wake + [MapIntent(ScanCodeValue(PttLeftName), intent),
                            MapIntent(ScanCodeValue(PttRightName), intent)], PttConfigured)
  }

  /**
    Because the push-to-talk names fall through to scan code 0, a configured
    PTT issues the same mapping twice, both on scan code 0.
  */
  lemma {:induction false} PttMapsScanCodeZeroTwice(prefs: Prefs, launchIntentFor: LaunchLookup)
    ensures var r := ConfigurePtt(prefs, launchIntentFor);
            r.outcome == PttConfigured ==>
              && |r.commands| == 3
              && r.commands[1] == r.commands[2]
              && r.commands[1] == MapIntent(NoScanCode, launchIntentFor(LoadText(prefs, WalkieTalkieApp).value).value)
  {
  }

  /**
    Saved through its field, the package name is trimmed, so PTT is set up
    only when the entered text has a non-whitespace character and the
    trimmed name resolves.
  */
  lemma {:induction false} PttAfterEnteringApp(prefs: Prefs, text: string, launchIntentFor: LaunchLookup)
    ensures var r := ConfigurePtt(LeaveTextField(prefs, WalkieTalkieField, text), launchIntentFor);
            r.outcome == PttConfigured <==>
              (exists k :: 0 <= k < |text| && !IsWhitespace(text[k])) && launchIntentFor(Trim(text)).Some?
  {
    var p := LeaveTextField(prefs, WalkieTalkieField, text);
    assert LoadText(p, WalkieTalkieApp) == Ok(Trim(text)) by {
      assert Load(p, TextPref(WalkieTalkieApp)) == Ok(PString(Trim(text)));
    }
    TrimEmpty(text);
  }

  // ---------------------------------------------------------------------
  // Reset, delete and lock

  datatype Effect = Effect(commands: seq<Command>, prefs: Prefs)

  /** The reset dialog is confirmed: every mapping is cleared and the switch's setting is saved off. */
  function ConfirmReset(prefs: Prefs): (r: Effect)
    ensures r.commands == [ClearAllMappings]
    ensures Load(r.prefs, BoolPref(ResetRemapping)) == Ok(PBool(false))
    ensures forall t :: t != BoolPref(ResetRemapping) ==> Load(r.prefs, t) == Load(prefs, t)
  {
    Effect([ClearAllMappings], Store(prefs, BoolPref(ResetRemapping), PBool(false)))
  }

  /** The delete-mappings button: every mapping is cleared, and no setting changes. */
  function DeleteAllMappings(prefs: Prefs): (r: Effect)
    ensures r.commands == [ClearAllMappings] && r.prefs == prefs
  {
    Effect([ClearAllMappings], prefs)
  }

  /** The lock switch: input is locked or unlocked, and the state is saved. */
  function ToggleLock(prefs: Prefs, checked: bool): (r: Effect)
    ensures r.commands == [LockInputCommand(checked)]
    ensures Load(r.prefs, BoolPref(LockInput)) == Ok(PBool(checked))
    ensures forall t :: t != BoolPref(LockInput) ==> Load(r.prefs, t) == Load(prefs, t)
  {
    Effect([LockInputCommand(checked)], ToggleSwitch(prefs, LockInput, checked))
  }

  /**
    The screen never stores `true` for the reset switch: toggling it saves
    nothing, and confirming the dialog saves `false`.
  */
  lemma {:induction false} ResetNeverStoredOn(prefs: Prefs, checked: bool)
    requires Load(prefs, BoolPref(ResetRemapping)) == Ok(PBool(false))
    ensures Load(ToggleSwitch(prefs, ResetRemapping, checked), BoolPref(ResetRemapping)) == Ok(PBool(false))
    ensures Load(ConfirmReset(prefs).prefs, BoolPref(ResetRemapping)) == Ok(PBool(false))
  {
  }
}

=== FILE: keyboard_settings.dfy ===
/**
  The keyboard screen's persisted settings: the table of preference keys and
  load defaults, the typed SharedPreferences reads and writes, the handlers
  that store a widget's value when it changes or loses focus, and
  `loadSettings`, which fills the widgets from the stored values.
*/
module KeyboardSettings {
  import opened Basics
  import opened KotlinText

  /** A stored preference value; SharedPreferences keeps the type it was written with. */
  datatype PrefValue = PBool(flag: bool) | PInt(number: int) | PString(text: string)

  /** The `KeyboardSettings` preferences file. */
  type Prefs = map<string, PrefValue>

  /** A typed getter found a value of another type under its key (`ClassCastException`). */
  datatype PrefError = ClassCast(key: string)

  datatype BoolSetting =
    | LockInput | EnableTriggerSource | AutoScanEnable | MotionTriggerEnable | VibrateOnMotion
    | ResetRemapping | EnableNotification | PttScreenLock | BacklightEnable

  datatype IntSetting = MotionSensitivity | BacklightBrightness | BacklightTimeout | MultitapDelay

  datatype TextSetting = TriggerSource | AutoScanRange | SourceKey | RemapType | Target | WalkieTalkieApp

  /** Every setting the screen saves and loads. */
  datatype Setting = BoolPref(b: BoolSetting) | IntPref(i: IntSetting) | TextPref(t: TextSetting)

  /** The physical keys offered by the source-key spinner and the remap dialogs. */
  const ScanCodeNames: seq<string> := [
    "VSCAN_LEFT_TRIGGER", "VSCAN_RIGHT_TRIGGER", "VSCAN_PTT_TRIGGER_LEFT",
    "VSCAN_PTT_TRIGGER_RIGHT", "VSCAN_AUTOSCAN_TRIGGER", "VSCAN_MOTION_TRIGGER"]

  const TriggerSources: seq<string> := [
    "None", "Left Trigger", "Right Trigger", "Pistol Trigger", "Front Trigger",
    "Auto Scan Trigger", "Motion Trigger"]

  const AutoScanRanges: seq<string> := ["Near", "Medium", "Far"]

  const RemapTypes: seq<string> := ["Keycode", "Unicode", "Intent"]

  // ---------------------------------------------------------------------
  // The key / default table

  /** The preference key each setting is saved and loaded under. */
  function Key(s: Setting): string {
    match s
    case BoolPref(LockInput) => "lock_input"
    case BoolPref(EnableTriggerSource) => "enable_trigger_source"
    case BoolPref(AutoScanEnable) => "auto_scan_enable"
    case BoolPref(MotionTriggerEnable) => "motion_trigger_enable"
    case BoolPref(VibrateOnMotion) => "vibrate_on_motion"
    case BoolPref(ResetRemapping) => "reset_remapping"
    case BoolPref(EnableNotification) => "enable_notification"
    case BoolPref(PttScreenLock) => "ptt_screen_lock"
    case BoolPref(BacklightEnable) => "backlight_enable"
    case IntPref(MotionSensitivity) => "motion_trigger_sensitivity"
    case IntPref(BacklightBrightness) => "backlight_brightness"
    case IntPref(BacklightTimeout) => "backlight_timeout"
    case IntPref(MultitapDelay) => "multitap_delay"
    case TextPref(TriggerSource) => "trigger_source"
    case TextPref(AutoScanRange) => "auto_scan_range"
    case TextPref(SourceKey) => "source_key"
    case TextPref(RemapType) => "remap_type"
    case TextPref(Target) => "target"
    case TextPref(WalkieTalkieApp) => "walkie_talkie_app"
  }

  /** The value `loadSettings` uses when the key is absent. */
  function Default(s: Setting): PrefValue {
    match s
    case BoolPref(b) =>
      PBool(b == EnableTriggerSource || b == VibrateOnMotion)
    case IntPref(i) =>
      PInt(match i
           case MotionSensitivity => 0
           case BacklightBrightness => 50
           case BacklightTimeout => 5
           case MultitapDelay => 330)
    case TextPref(t) =>
      PString(match t
              case TriggerSource => "None"
              case AutoScanRange => "Near"
              case SourceKey => ScanCodeNames[0]
              case RemapType => "Keycode"
              case Target => ""
              case WalkieTalkieApp => "")
  }

  /** `v` has the type the setting is written and read with; an `Int` is 32 bits wide. */
  predicate Fits(s: Setting, v: PrefValue) {
    match s
    case BoolPref(_) => v.PBool?
    case IntPref(_) => v.PInt? && IsInt32(v.number)
    case TextPref(_) => v.PString?
  }

  /** Every setting present in the file holds a value of its own type. */
  ghost predicate WellTyped(prefs: Prefs) {
    forall s: Setting :: Key(s) in prefs ==> Fits(s, prefs[Key(s)])
  }

  // ---------------------------------------------------------------------
  // SharedPreferences

  function GetBoolean(prefs: Prefs, key: string, default: bool): (r: Result<bool, PrefError>)
    ensures key !in prefs ==> r == Ok(default)
    ensures key in prefs ==> (r.Ok? <==> prefs[key].PBool?)
    ensures key in prefs && r.Ok? ==> r.value == prefs[key].flag
  {
    if key !in prefs then Ok(default)
    else if prefs[key].PBool? then Ok(prefs[key].flag)
    else Err(ClassCast(key))
  }

  function GetInt(prefs: Prefs, key: string, default: int): (r: Result<int, PrefError>)
    ensures key !in prefs ==> r == Ok(default)
    ensures key in prefs ==> (r.Ok? <==> prefs[key].PInt?)
    ensures key in prefs && r.Ok? ==> r.value == prefs[key].number
  {
    if key !in prefs then Ok(default)
    else if prefs[key].PInt? then Ok(prefs[key].number)
    else Err(ClassCast(key))
  }

  function GetString(prefs: Prefs, key: string, default: string): (r: Result<string, PrefError>)
    ensures key !in prefs ==> r == Ok(default)
    ensures key in prefs ==> (r.Ok? <==> prefs[key].PString?)
    ensures key in prefs && r.Ok? ==> r.value == prefs[key].text
  {
    if key !in prefs then Ok(default)
    else if prefs[key].PString? then Ok(prefs[key].text)
    else Err(ClassCast(key))
  }

  /** `saveBoolean`, `saveInt`, `saveString`: one key written, every other key kept. */
  function SaveBoolean(prefs: Prefs, key: string, value: bool): Prefs {
    prefs[key := PBool(value)]
  }

  function SaveInt(prefs: Prefs, key: string, value: int): Prefs {
    prefs[key := PInt(value)]
  }

  function SaveString(prefs: Prefs, key: string, value: string): Prefs {
    prefs[key := PString(value)]
  }

  /** Reading a setting with its typed getter and its load default. */
  function Load(prefs: Prefs, s: Setting): (r: Result<PrefValue, PrefError>)
    ensures Key(s) !in prefs ==> r == Ok(Default(s))
    ensures Key(s) in prefs ==>
              (r.Ok? <==> (prefs[Key(s)].PBool? == Default(s).PBool? && prefs[Key(s)].PInt? == Default(s).PInt?))
    ensures Key(s) in prefs && r.Ok? ==> r.value == prefs[Key(s)]
  {
    match Default(s)
    case PBool(d) => var b :- GetBoolean(prefs, Key(s), d); Ok(PBool(b))
    case PInt(d) => var n :- GetInt(prefs, Key(s), d); Ok(PInt(n))
    case PString(d) => var t :- GetString(prefs, Key(s), d); Ok(PString(t))
  }

  /**
    Writing a setting with the save helper of its type: the setting then loads
    as the written value, every other setting loads as before, and a
    well-typed file stays well typed.
  */
  function Store(prefs: Prefs, s: Setting, v: PrefValue): (r: Prefs)
    ensures Fits(s, v) ==> Load(r, s) == Ok(v)
    ensures forall t :: t != s ==> Load(r, t) == Load(prefs, t)
    ensures Fits(s, v) && WellTyped(prefs) ==> WellTyped(r)
  {
    KeysInjective();
    match v
    case PBool(b) => SaveBoolean(prefs, Key(s), b)
    case PInt(n) => SaveInt(prefs, Key(s), n)
    case PString(t) => SaveString(prefs, Key(s), t)
  }

  // ---------------------------------------------------------------------
  // Table lemmas

  /** No two settings share a key. */
  lemma {:induction false} KeysInjective()
    ensures forall s, t :: Key(s) == Key(t) ==> s == t
  {
    forall s, t | Key(s) == Key(t) ensures s == t {
      KeyDetermines(s, t);
    }
  }

  lemma {:induction false} KeyDetermines(s: Setting, t: Setting)
    requires Key(s) == Key(t)
    ensures s == t
  {
  }

  /** Every load default has the setting's own type. */
  lemma {:induction false} DefaultsFit(s: Setting)
    ensures Fits(s, Default(s))
  {
  }

  /** In a well-typed file every setting loads without a ClassCastException. */
  lemma {:induction false} WellTypedLoads(prefs: Prefs, s: Setting)
    requires WellTyped(prefs)
    ensures Load(prefs, s).Ok? && Fits(s, Load(prefs, s).value)
  {
    DefaultsFit(s);
    if Key(s) in prefs {
      assert Fits(s, prefs[Key(s)]);
    }
  }

  // ---------------------------------------------------------------------
  // Widget handlers

  /** The three numeric edit fields, saved when they lose focus. */
  datatype IntField = SensitivityField | TimeoutField | MultitapField

  function FieldSetting(f: IntField): IntSetting {
    match f
    case SensitivityField => MotionSensitivity
    case TimeoutField => BacklightTimeout
    case MultitapField => MultitapDelay
  }

  /** The value stored when the field's text is not a valid `Int`. */
  function Fallback(f: IntField): int {
    match f
    case SensitivityField => 0
    case TimeoutField => 5
    case MultitapField => 330
  }

  /** `text.toIntOrNull() ?: fallback` for the field. */
  function FieldValue(f: IntField, text: string): (r: int)
    ensures IsInt32(r)
    ensures ParseInt(text).Some? ==> r == ParseInt(text).value
    ensures ParseInt(text).None? ==> r == Fallback(f)
  {
    ParseIntOr(text, Fallback(f))
  }

  /** The parse fallback of each field equals the default used when its key is absent. */
  lemma {:induction false} FallbackIsLoadDefault(f: IntField)
    ensures Default(IntPref(FieldSetting(f))) == PInt(Fallback(f))
  {
  }

  /** A numeric field loses focus: its parsed value, or its fallback, is saved. */
  function LeaveIntField(prefs: Prefs, f: IntField, text: string): (r: Prefs)
    ensures Load(r, IntPref(FieldSetting(f))) == Ok(PInt(FieldValue(f, text)))
    ensures forall t :: t != IntPref(FieldSetting(f)) ==> Load(r, t) == Load(prefs, t)
    ensures WellTyped(prefs) ==> WellTyped(r)
  {
    Store(prefs, IntPref(FieldSetting(f)), PInt(FieldValue(f, text)))
  }

  /** The free-text fields, saved trimmed when they lose focus. */
  datatype TextField = TargetField | WalkieTalkieField

  function TextFieldSetting(f: TextField): TextSetting {
    match f
    case TargetField => Target
    case WalkieTalkieField => WalkieTalkieApp
  }

  /** A free-text field loses focus: its text is trimmed, then saved. */
  function LeaveTextField(prefs: Prefs, f: TextField, text: string): (r: Prefs)
    ensures Load(r, TextPref(TextFieldSetting(f))) == Ok(PString(Trim(text)))
    ensures forall t :: t != TextPref(TextFieldSetting(f)) ==> Load(r, t) == Load(prefs, t)
    ensures WellTyped(prefs) ==> WellTyped(r)
  {
    Store(prefs, TextPref(TextFieldSetting(f)), PString(Trim(text)))
  }

  /** The four spinners, each saving the chosen item's text. */
  datatype Spinner = TriggerSourceSpinner | AutoScanRangeSpinner | SourceKeySpinner | RemapTypeSpinner

  function SpinnerSetting(sp: Spinner): TextSetting {
    match sp
    case TriggerSourceSpinner => TriggerSource
    case AutoScanRangeSpinner => AutoScanRange
    case SourceKeySpinner => SourceKey
    case RemapTypeSpinner => RemapType
  }

  function Choices(sp: Spinner): seq<string> {
    match sp
    case TriggerSourceSpinner => TriggerSources
    case AutoScanRangeSpinner => AutoScanRanges
    case SourceKeySpinner => ScanCodeNames
    case RemapTypeSpinner => RemapTypes
  }

  /** An item is picked: its text is saved under the spinner's key. */
  function SelectItem(prefs: Prefs, sp: Spinner, position: int): Prefs
    requires 0 <= position < |Choices(sp)|
  {
    Store(prefs, TextPref(SpinnerSetting(sp)), PString(Choices(sp)[position]))
  }

  /**
    The position `loadSettings` selects: the index of the loaded text among
    the items, or -1 when it is not an item; the first item when nothing is
    stored; a ClassCast exactly when the stored text is unreadable.
  */
  function SpinnerPosition(prefs: Prefs, sp: Spinner): (r: Result<int, PrefError>)
    ensures r.Ok? <==> LoadText(prefs, SpinnerSetting(sp)).Ok?
    ensures r.Ok? ==> -1 <= r.value < |Choices(sp)|
    ensures r.Ok? && r.value >= 0 ==> Choices(sp)[r.value] == LoadText(prefs, SpinnerSetting(sp)).value
    ensures r.Ok? ==> (r.value == -1 <==> LoadText(prefs, SpinnerSetting(sp)).value !in Choices(sp))
    ensures Key(TextPref(SpinnerSetting(sp))) !in prefs ==> r == Ok(0)
  {
    var text :- GetString(prefs, Key(TextPref(SpinnerSetting(sp))), Default(TextPref(SpinnerSetting(sp))).text);
    Ok(IndexOf(Choices(sp), text))
  }

  lemma {:induction false} ChoicesDistinct(sp: Spinner, i: int, j: int)
    requires 0 <= i < j < |Choices(sp)|
    ensures Choices(sp)[i] != Choices(sp)[j]
  {
  }

  /** Each item text occurs at one position only. */
  lemma {:induction false} ChoiceIndexUnique(sp: Spinner, i: int, j: int)
    requires 0 <= i < |Choices(sp)| && 0 <= j < |Choices(sp)|
    requires Choices(sp)[i] == Choices(sp)[j]
    ensures i == j
  {
    if i < j {
      ChoicesDistinct(sp, i, j);
    } else if j < i {
      ChoicesDistinct(sp, j, i);
    }
  }

  /** Picking an item and reloading the screen selects that same item again. */
  lemma {:induction false} SelectThenReload(prefs: Prefs, sp: Spinner, position: int)
    requires 0 <= position < |Choices(sp)|
    ensures SpinnerPosition(SelectItem(prefs, sp, position), sp) == Ok(position)
  {
    var p := SelectItem(prefs, sp, position);
    var item := Choices(sp)[position];
    StoredTextReads(p, SpinnerSetting(sp), item);
    var r := SpinnerPosition(p, sp);
    assert item in Choices(sp);
    ChoiceIndexUnique(sp, r.value, position);
  }

  /** A switch changes: its state is saved; the reset switch saves nothing itself. */
  function ToggleSwitch(prefs: Prefs, b: BoolSetting, checked: bool): (r: Prefs)
    ensures b == ResetRemapping ==> r == prefs
    ensures b != ResetRemapping ==> Load(r, BoolPref(b)) == Ok(PBool(checked))
    ensures forall t :: t != BoolPref(b) ==> Load(r, t) == Load(prefs, t)
    ensures WellTyped(prefs) ==> WellTyped(r)
  {
    if b == ResetRemapping then prefs
    else Store(prefs, BoolPref(b), PBool(checked))
  }

  /** The brightness seek bar moves: the progress is saved. */
  function SeekBrightness(prefs: Prefs, progress: int): (r: Prefs)
    requires IsInt32(progress)
    ensures Load(r, IntPref(BacklightBrightness)) == Ok(PInt(progress))
    ensures forall t :: t != IntPref(BacklightBrightness) ==> Load(r, t) == Load(prefs, t)
    ensures WellTyped(prefs) ==> WellTyped(r)
  {
    Store(prefs, IntPref(BacklightBrightness), PInt(progress))
  }

  // ---------------------------------------------------------------------
  // loadSettings

  /** What the screen shows after `loadSettings`, group by group; numeric fields hold text. */
  datatype General = General(lockInput: bool, triggerSource: int, enableTrigger: bool)
  datatype AutoScan = AutoScan(enable: bool, range: int)
  datatype Motion = Motion(enable: bool, sensitivity: string, vibrate: bool)
  datatype Remapping = Remapping(reset: bool, sourceKey: int, remapType: int, target: string)
  datatype Ptt = Ptt(notification: bool, screenLock: bool, walkieTalkieApp: string)
  datatype Backlight = Backlight(enable: bool, brightness: int, timeout: string, multitapDelay: string)
  datatype Screen = Screen(
    general: General, autoScan: AutoScan, motion: Motion,
    remapping: Remapping, ptt: Ptt, backlight: Backlight)

  function LoadBool(prefs: Prefs, b: BoolSetting): (r: Result<bool, PrefError>)
    ensures r.Err? ==> r.error.key in prefs
  {
    GetBoolean(prefs, Key(BoolPref(b)), Default(BoolPref(b)).flag)
  }

  function LoadInt(prefs: Prefs, i: IntSetting): (r: Result<int, PrefError>)
    ensures r.Err? ==> r.error.key in prefs
  {
    GetInt(prefs, Key(IntPref(i)), Default(IntPref(i)).number)
  }

  function LoadText(prefs: Prefs, t: TextSetting): (r: Result<string, PrefError>)
    ensures r.Err? ==> r.error.key in prefs
  {
    GetString(prefs, Key(TextPref(t)), Default(TextPref(t)).text)
  }

  /** Two files that agree on a text setting read the same text for it. */
  lemma {:induction false} SameLoadSameText(a: Prefs, b: Prefs, t: TextSetting)
    requires Load(a, TextPref(t)) == Load(b, TextPref(t))
    ensures LoadText(a, t) == LoadText(b, t)
  {
  }

  /** A text setting that loads as a string reads as that string. */
  lemma {:induction false} StoredTextReads(prefs: Prefs, t: TextSetting, v: string)
    requires Load(prefs, TextPref(t)) == Ok(PString(v))
    ensures LoadText(prefs, t) == Ok(v)
  {
  }

  /** Two files that agree on a switch's key read the same state for it. */
  lemma {:induction false} SameLoadSameBool(a: Prefs, b: Prefs, s: BoolSetting)
    requires Load(a, BoolPref(s)) == Load(b, BoolPref(s))
    ensures LoadBool(a, s) == LoadBool(b, s)
  {
  }

  /** A switch whose key loads as a boolean reads as that boolean. */
  lemma {:induction false} StoredBoolReads(prefs: Prefs, s: BoolSetting, v: bool)
    requires Load(prefs, BoolPref(s)) == Ok(PBool(v))
    ensures LoadBool(prefs, s) == Ok(v)
  {
  }

  /** The text a numeric field shows: the stored number's `toString()`. */
  function ShownInt(prefs: Prefs, f: IntField): (r: Result<string, PrefError>)
    ensures r.Err? ==> r.error.key in prefs
  {
    var n :- LoadInt(prefs, FieldSetting(f));
    Ok(IntToString(n))
  }

  function LoadGeneral(prefs: Prefs): (r: Result<General, PrefError>)
    ensures r.Err? ==> r.error.key in prefs
    ensures r.Ok? <==>
              && LoadBool(prefs, LockInput).Ok?
              && SpinnerPosition(prefs, TriggerSourceSpinner).Ok?
              && LoadBool(prefs, EnableTriggerSource).Ok?
    ensures r.Ok? ==>
              && r.value.lockInput == LoadBool(prefs, LockInput).value
              && r.value.triggerSource == SpinnerPosition(prefs, TriggerSourceSpinner).value
              && r.value.enableTrigger == LoadBool(prefs, EnableTriggerSource).value
  {
    var lockInput :- LoadBool(prefs, LockInput);
    var triggerSource :- SpinnerPosition(prefs, TriggerSourceSpinner);
    var enableTrigger :- LoadBool(prefs, EnableTriggerSource);
    Ok(General(lockInput, triggerSource, enableTrigger))
  }

  function LoadAutoScan(prefs: Prefs): (r: Result<AutoScan, PrefError>)
    ensures r.Err? ==> r.error.key in prefs
    ensures r.Ok? <==>
              && LoadBool(prefs, AutoScanEnable).Ok?
              && SpinnerPosition(prefs, AutoScanRangeSpinner).Ok?
    ensures r.Ok? ==>
              && r.value.enable == LoadBool(prefs, AutoScanEnable).value
              && r.value.range == SpinnerPosition(prefs, AutoScanRangeSpinner).value
  {
    var enable :- LoadBool(prefs, AutoScanEnable);
    var range :- SpinnerPosition(prefs, AutoScanRangeSpinner);
    Ok(AutoScan(enable, range))
  }

  function LoadMotion(prefs: Prefs): (r: Result<Motion, PrefError>)
    ensures r.Err? ==> r.error.key in prefs
    ensures r.Ok? <==>
              && LoadBool(prefs, MotionTriggerEnable).Ok?
              && ShownInt(prefs, SensitivityField).Ok?
              && LoadBool(prefs, VibrateOnMotion).Ok?
    ensures r.Ok? ==>
              && r.value.enable == LoadBool(prefs, MotionTriggerEnable).value
              && r.value.sensitivity == ShownInt(prefs, SensitivityField).value
              && r.value.vibrate == LoadBool(prefs, VibrateOnMotion).value
  {
    var enable :- LoadBool(prefs, MotionTriggerEnable);
    var sensitivity :- ShownInt(prefs, SensitivityField);
    var vibrate :- LoadBool(prefs, VibrateOnMotion);
    Ok(Motion(enable, sensitivity, vibrate))
  }

  function LoadRemapping(prefs: Prefs): (r: Result<Remapping, PrefError>)
    ensures r.Err? ==> r.error.key in prefs
    ensures r.Ok? <==>
              && LoadBool(prefs, ResetRemapping).Ok?
              && SpinnerPosition(prefs, SourceKeySpinner).Ok?
              && SpinnerPosition(prefs, RemapTypeSpinner).Ok?
              && LoadText(prefs, Target).Ok?
    ensures r.Ok? ==>
              && r.value.reset == LoadBool(prefs, ResetRemapping).value
              && r.value.sourceKey == SpinnerPosition(prefs, SourceKeySpinner).value
              && r.value.remapType == SpinnerPosition(prefs, RemapTypeSpinner).value
              && r.value.target == LoadText(prefs, Target).value
  {
    var reset :- LoadBool(prefs, ResetRemapping);
    var sourceKey :- SpinnerPosition(prefs, SourceKeySpinner);
    var remapType :- SpinnerPosition(prefs, RemapTypeSpinner);
    var target :- LoadText(prefs, Target);
    Ok(Remapping(reset, sourceKey, remapType, target))
  }

  function LoadPtt(prefs: Prefs): (r: Result<Ptt, PrefError>)
    ensures r.Err? ==> r.error.key in prefs
    ensures r.Ok? <==>
              && LoadBool(prefs, EnableNotification).Ok?
              && LoadBool(prefs, PttScreenLock).Ok?
              && LoadText(prefs, WalkieTalkieApp).Ok?
    ensures r.Ok? ==>
              && r.value.notification == LoadBool(prefs, EnableNotification).value
              && r.value.screenLock == LoadBool(prefs, PttScreenLock).value
              && r.value.walkieTalkieApp == LoadText(prefs, WalkieTalkieApp).value
  {
    var notification :- LoadBool(prefs, EnableNotification);
    var screenLock :- LoadBool(prefs, PttScreenLock);
    var app :- LoadText(prefs, WalkieTalkieApp);
    Ok(Ptt(notification, screenLock, app))
  }

  function LoadBacklight(prefs: Prefs): (r: Result<Backlight, PrefError>)
    ensures r.Err? ==> r.error.key in prefs
    ensures r.Ok? <==>
              && LoadBool(prefs, BacklightEnable).Ok?
              && LoadInt(prefs, BacklightBrightness).Ok?
              && ShownInt(prefs, TimeoutField).Ok?
              && ShownInt(prefs, MultitapField).Ok?
    ensures r.Ok? ==>
              && r.value.enable == LoadBool(prefs, BacklightEnable).value
              && r.value.brightness == LoadInt(prefs, BacklightBrightness).value
              && r.value.timeout == ShownInt(prefs, TimeoutField).value
              && r.value.multitapDelay == ShownInt(prefs, MultitapField).value
  {
    var enable :- LoadBool(prefs, BacklightEnable);
    var brightness :- LoadInt(prefs, BacklightBrightness);
    var timeout :- ShownInt(prefs, TimeoutField);
    var multitap :- ShownInt(prefs, MultitapField);
    Ok(Backlight(enable, brightness, timeout, multitap))
  }

  /**
    `loadSettings`: every widget is filled from its key, falling back to the
    table's default; a value of the wrong type under one of the keys aborts
    with ClassCast.
  */
  function LoadSettings(prefs: Prefs): (r: Result<Screen, PrefError>)
    ensures r.Err? ==> r.error.key in prefs
    ensures r.Ok? <==>
              && LoadGeneral(prefs).Ok?
              && LoadAutoScan(prefs).Ok?
              && LoadMotion(prefs).Ok?
              && LoadRemapping(prefs).Ok?
              && LoadPtt(prefs).Ok?
              && LoadBacklight(prefs).Ok?
    ensures r.Ok? ==>
              && r.value.general.lockInput == LoadBool(prefs, LockInput).value
              && r.value.general.triggerSource == SpinnerPosition(prefs, TriggerSourceSpinner).value
              && r.value.general.enableTrigger == LoadBool(prefs, EnableTriggerSource).value
    ensures r.Ok? ==>
              && r.value.autoScan.enable == LoadBool(prefs, AutoScanEnable).value
              && r.value.autoScan.range == SpinnerPosition(prefs, AutoScanRangeSpinner).value
    ensures r.Ok? ==>
              && r.value.motion.enable == LoadBool(prefs, MotionTriggerEnable).value
              && r.value.motion.sensitivity == ShownInt(prefs, SensitivityField).value
              && r.value.motion.vibrate == LoadBool(prefs, VibrateOnMotion).value
    ensures r.Ok? ==>
              && r.value.remapping.reset == LoadBool(prefs, ResetRemapping).value
              && r.value.remapping.sourceKey == SpinnerPosition(prefs, SourceKeySpinner).value
              && r.value.remapping.remapType == SpinnerPosition(prefs, RemapTypeSpinner).value
              && r.value.remapping.target == LoadText(prefs, Target).value
    ensures r.Ok? ==>
              && r.value.ptt.notification == LoadBool(prefs, EnableNotification).value
              && r.value.ptt.screenLock == LoadBool(prefs, PttScreenLock).value
              && r.value.ptt.walkieTalkieApp == LoadText(prefs, WalkieTalkieApp).value
    ensures r.Ok? ==>
              && r.value.backlight.enable == LoadBool(prefs, BacklightEnable).value
              && r.value.backlight.brightness == LoadInt(prefs, BacklightBrightness).value
              && r.value.backlight.timeout == ShownInt(prefs, TimeoutField).value
              && r.value.backlight.multitapDelay == ShownInt(prefs, MultitapField).value
  {
    var general :- LoadGeneral(prefs);
    var autoScan :- LoadAutoScan(prefs);
    var motion :- LoadMotion(prefs);
    var remapping :- LoadRemapping(prefs);
    var ptt :- LoadPtt(prefs);
    var backlight :- LoadBacklight(prefs);
    Ok(Screen(general, autoScan, motion, remapping, ptt, backlight))
  }

  lemma {:induction false} SmallIntsShown()
    ensures IntToString(0) == "0" && IntToString(5) == "5" && IntToString(330) == "330"
  {
    assert Digits(330) == Digits(33) + [DigitChar(0)];
    assert Digits(33) == Digits(3) + [DigitChar(3)];
  }

  /** With nothing stored, every loader yields the table's default. */
  lemma {:induction false} EmptyLoadsDefaults(empty: Prefs)
    requires empty == map[]
    ensures forall b :: LoadBool(empty, b) == Ok(Default(BoolPref(b)).flag)
    ensures forall i :: LoadInt(empty, i) == Ok(Default(IntPref(i)).number)
    ensures forall t :: LoadText(empty, t) == Ok(Default(TextPref(t)).text)
  {
  }

  lemma {:induction false} EmptySpinnersFirst(empty: Prefs)
    requires empty == map[]
    ensures forall sp :: SpinnerPosition(empty, sp) == Ok(0)
  {
  }

  lemma {:induction false} EmptyFirstGroups(empty: Prefs)
    requires empty == map[]
    ensures LoadGeneral(empty) == Ok(General(false, 0, true))
    ensures LoadAutoScan(empty) == Ok(AutoScan(false, 0))
    ensures LoadMotion(empty) == Ok(Motion(false, "0", true))
  {
    EmptyLoadsDefaults(empty);
    EmptySpinnersFirst(empty);
    SmallIntsShown();
    assert Default(IntPref(MotionSensitivity)).number == 0;
  }

  lemma {:induction false} EmptyLastGroups(empty: Prefs)
    requires empty == map[]
    ensures LoadRemapping(empty) == Ok(Remapping(false, 0, 0, ""))
    ensures LoadPtt(empty) == Ok(Ptt(false, false, ""))
    ensures LoadBacklight(empty) == Ok(Backlight(false, 50, "5", "330"))
  {
    EmptyLoadsDefaults(empty);
    EmptySpinnersFirst(empty);
    SmallIntsShown();
    assert Default(TextPref(Target)).text == "";
    assert Default(TextPref(WalkieTalkieApp)).text == "";
    assert Default(IntPref(BacklightTimeout)).number == 5;
    assert Default(IntPref(MultitapDelay)).number == 330;
    assert ShownInt(empty, TimeoutField) == Ok("5");
    assert ShownInt(empty, MultitapField) == Ok("330");
  }

  /** With nothing stored, the screen shows every default, each spinner on its first item. */
  lemma {:induction false} LoadDefaults()
    ensures LoadSettings(map[]) == Ok(Screen(
              General(false, 0, true), AutoScan(false, 0), Motion(false, "0", true),
              Remapping(false, 0, 0, ""), Ptt(false, false, ""), Backlight(false, 50, "5", "330")))
  {
    EmptyFirstGroups(map[]);
    EmptyLastGroups(map[]);
  }

  /** In a well-typed file, each of the per-type loaders succeeds. */
  lemma {:induction false} WellTypedLoadsEach(prefs: Prefs)
    requires WellTyped(prefs)
    ensures forall b :: LoadBool(prefs, b).Ok?
    ensures forall i :: LoadInt(prefs, i).Ok?
    ensures forall t :: LoadText(prefs, t).Ok?
  {
    forall b: BoolSetting ensures LoadBool(prefs, b).Ok? {
      assert Key(BoolPref(b)) in prefs ==> Fits(BoolPref(b), prefs[Key(BoolPref(b))]);
    }
    forall i: IntSetting ensures LoadInt(prefs, i).Ok? {
      assert Key(IntPref(i)) in prefs ==> Fits(IntPref(i), prefs[Key(IntPref(i))]);
    }
    forall t: TextSetting ensures LoadText(prefs, t).Ok? {
      assert Key(TextPref(t)) in prefs ==> Fits(TextPref(t), prefs[Key(TextPref(t))]);
    }
  }

  /** A well-typed file always loads, and the text fields show the stored text. */
  lemma {:induction false} WellTypedScreenLoads(prefs: Prefs)
    requires WellTyped(prefs)
    ensures LoadSettings(prefs).Ok?
    ensures LoadSettings(prefs).value.remapping.target == LoadText(prefs, Target).value
    ensures LoadSettings(prefs).value.ptt.walkieTalkieApp == LoadText(prefs, WalkieTalkieApp).value
  {
    WellTypedLoadsEach(prefs);
    assert LoadGeneral(prefs).Ok?;
    assert LoadAutoScan(prefs).Ok?;
    assert LoadMotion(prefs).Ok?;
    assert LoadRemapping(prefs).Ok?;
    assert LoadPtt(prefs).Ok?;
    assert LoadBacklight(prefs).Ok?;
  }

  /** The state a switch shows on a loaded screen. */
  function SwitchShown(sc: Screen, b: BoolSetting): bool {
    match b
    case LockInput => sc.general.lockInput
    case EnableTriggerSource => sc.general.enableTrigger
    case AutoScanEnable => sc.autoScan.enable
    case MotionTriggerEnable => sc.motion.enable
    case VibrateOnMotion => sc.motion.vibrate
    case ResetRemapping => sc.remapping.reset
    case EnableNotification => sc.ptt.notification
    case PttScreenLock => sc.ptt.screenLock
    case BacklightEnable => sc.backlight.enable
  }

  /** On a loaded screen every switch shows the state stored under its key. */
  lemma {:induction false} SwitchShowsStored(prefs: Prefs, b: BoolSetting)
    requires LoadSettings(prefs).Ok?
    ensures LoadBool(prefs, b).Ok?
    ensures SwitchShown(LoadSettings(prefs).value, b) == LoadBool(prefs, b).value
  {
  }

  /** Two loaded screens whose files agree on a switch's key show the same state on it. */
  lemma {:induction false} SwitchesAgree(a: Prefs, b: Prefs, s: BoolSetting)
    requires LoadSettings(a).Ok? && LoadSettings(b).Ok?
    requires Load(a, BoolPref(s)) == Load(b, BoolPref(s))
    ensures SwitchShown(LoadSettings(a).value, s) == SwitchShown(LoadSettings(b).value, s)
  {
    SameLoadSameBool(a, b, s);
    SwitchShowsStored(a, s);
    SwitchShowsStored(b, s);
  }

  /**
    Flipping a switch and reloading the screen shows the new state on that
    switch and the old state on every other switch.
  */
  lemma {:induction false} ToggleThenReload(prefs: Prefs, b: BoolSetting, checked: bool, other: BoolSetting)
    requires WellTyped(prefs)
    requires b != ResetRemapping
    ensures LoadSettings(prefs).Ok? && LoadSettings(ToggleSwitch(prefs, b, checked)).Ok?
    ensures SwitchShown(LoadSettings(ToggleSwitch(prefs, b, checked)).value, b) == checked
    ensures other != b ==>
              SwitchShown(LoadSettings(ToggleSwitch(prefs, b, checked)).value, other)
              == SwitchShown(LoadSettings(prefs).value, other)
  {
    var p := ToggleSwitch(prefs, b, checked);
    WellTypedScreenLoads(prefs);
    WellTypedScreenLoads(p);
    StoredBoolReads(p, b, checked);
    SwitchShowsStored(p, b);
    if other != b {
      SwitchesAgree(p, prefs, other);
    }
  }

  /** Moving the brightness bar and reloading the screen shows the new progress. */
  lemma {:induction false} SeekThenReload(prefs: Prefs, progress: int)
    requires WellTyped(prefs)
    requires IsInt32(progress)
    ensures LoadSettings(SeekBrightness(prefs, progress)).Ok?
    ensures LoadSettings(SeekBrightness(prefs, progress)).value.backlight.brightness == progress
  {
    WellTypedScreenLoads(SeekBrightness(prefs, progress));
  }

  /**
    A numeric field shows its stored number as text; leaving the field
    unedited stores the same number again, so every setting loads as before.
  */
  lemma {:induction false} ShownIntRoundTrip(prefs: Prefs, f: IntField, t: Setting)
    requires WellTyped(prefs)
    ensures ShownInt(prefs, f).Ok?
    ensures Load(LeaveIntField(prefs, f, ShownInt(prefs, f).value), t) == Load(prefs, t)
  {
    var s := IntPref(FieldSetting(f));
    WellTypedLoads(prefs, s);
    var n := LoadInt(prefs, FieldSetting(f)).value;
    assert IsInt32(n);
    ParseIntToString(n);
  }
}

=== FILE: kotlin_text.dfy ===
/**
  The few Kotlin standard-library string operations the activities rely on:
  `String.toIntOrNull()`, `Int.toString()` and `String.trim()`.
  Kotlin's `Int` is a 32-bit two's-complement integer; the model keeps
  unbounded `int` and states the 32-bit range explicitly where parsing
  depends on it.
*/
module KotlinText {
  import opened Basics

  const IntMin: int := -0x8000_0000
  const IntMax: int := 0x7FFF_FFFF

  /** Values a Kotlin `Int` can hold. */
  predicate IsInt32(n: int) {
    IntMin <= n <= IntMax
  }

  // ---------------------------------------------------------------------
  // Decimal digits

  predicate IsDigit(c: char) {
    '0' <= c <= '9'
  }

  predicate AllDigits(s: string) {
    forall i :: 0 <= i < |s| ==> IsDigit(s[i])
  }

  function DigitValue(c: char): nat
    requires IsDigit(c)
  {
    (c as int) - ('0' as int)
  }

  function DigitChar(d: nat): (c: char)
    requires d < 10
    ensures IsDigit(c) && DigitValue(c) == d
  {
    (('0' as int) + d) as char
  }

  /** The number a run of decimal digits denotes, most significant digit first. */
  function DigitsValue(s: string): nat
    requires AllDigits(s)
  {
    if |s| == 0 then 0
    else DigitsValue(s[..|s| - 1]) * 10 + DigitValue(s[|s| - 1])
  }

  /** The decimal digits of `n` without sign or leading zeros. */
  function Digits(n: nat): (s: string)
    ensures |s| > 0 && AllDigits(s)
  {
    if n < 10 then [DigitChar(n)] else Digits(n / 10) + [DigitChar(n % 10)]
  }

  /** `Int.toString()`: optional minus sign followed by the decimal digits. */
  function IntToString(n: int): string {
    if n < 0 then "-" + Digits(-n) else Digits(n)
  }

  // ---------------------------------------------------------------------
  // String.toIntOrNull()

  /**
    Kotlin's `String.toIntOrNull()` in radix 10: an optional leading `-` or
    `+` (a sign alone is rejected), then one or more digits, and the value
    must fit a 32-bit `Int`; anything else yields `null` (`None`).
    A first character below '0' that is not a sign is rejected, as are
    non-digits further on.
  */
  function ParseInt(s: string): (r: Option<int>)
    ensures r.Some? ==> IsInt32(r.value)
    ensures |s| == 0 ==> r.None?
    ensures s == "-" || s == "+" ==> r.None?
    ensures r.Some? <==>
              && |s| > 0
              && var body := if s[0] == '-' || s[0] == '+' then s[1..] else s;
                 && |body| > 0 && AllDigits(body)
                 && IsInt32(if s[0] == '-' then -(DigitsValue(body) as int) else DigitsValue(body) as int)
    ensures r.Some? ==>
              var body := if s[0] == '-' || s[0] == '+' then s[1..] else s;
              r.value == if s[0] == '-' then -(DigitsValue(body) as int) else DigitsValue(body) as int
  {
    if |s| == 0 then None
    else
      var negative := s[0] == '-';
      var hasSign := s[0] == '-' || s[0] == '+';
      if s[0] < '0' && (!hasSign || |s| == 1) then None
      else
        var body := if hasSign then s[1..] else s;
        if !AllDigits(body) then None
        else
          var magnitude: int := DigitsValue(body);
          var n := if negative then -magnitude else magnitude;
          if IsInt32(n) then Some(n) else None
  }

  /** `text.toIntOrNull() ?: fallback`. */
  function ParseIntOr(text: string, fallback: int): (r: int)
    ensures ParseInt(text).Some? ==> r == ParseInt(text).value
    ensures ParseInt(text).None? ==> r == fallback
  {
    match ParseInt(text)
    case Some(n) => n
    case None => fallback
  }

  lemma {:induction false} DigitsValueAppend(s: string, c: char)
    requires AllDigits(s) && IsDigit(c)
    ensures AllDigits(s + [c])
    ensures DigitsValue(s + [c]) == DigitsValue(s) * 10 + DigitValue(c)
  {
    assert (s + [c])[..|s + [c]| - 1] == s;
  }

  lemma {:induction false} DigitsRoundTrip(n: nat)
    ensures DigitsValue(Digits(n)) == n
  {
    if n < 10 {
      assert Digits(n)[..0] == "";
    } else {
      DigitsRoundTrip(n / 10);
      DigitsValueAppend(Digits(n / 10), DigitChar(n % 10));
    }
  }

  lemma {:induction false} DigitsStartWithDigit(n: nat)
    ensures Digits(n)[0] >= '0'
  {
    assert IsDigit(Digits(n)[0]);
  }

  /**
    Printing an `Int` and parsing the text back yields the same `Int`: the
    text a numeric field is filled with parses to the value it shows.
  */
  lemma {:induction false} ParseIntToString(n: int)
    requires IsInt32(n)
    ensures ParseInt(IntToString(n)) == Some(n)
  {
    if n < 0 {
      var s := IntToString(n);
      assert s[0] == '-' && |s| >= 2;
      assert s[1..] == Digits(-n);
      DigitsRoundTrip(-n);
    } else {
      DigitsStartWithDigit(n);
      DigitsRoundTrip(n);
    }
  }

  // ---------------------------------------------------------------------
  // String.trim()

  /**
    Kotlin's `Char.isWhitespace()`: Java's `Character.isWhitespace` (tab, line
    feed, vertical tab, form feed, carriage return, the four information
    separators and the space separators other than no-break spaces) together
    with `Character.isSpaceChar` (every space, line and paragraph separator,
    no-break spaces included).
  */
  predicate IsWhitespace(c: char) {
    || '\U{9}' <= c <= '\U{D}'
    || '\U{1C}' <= c <= '\U{20}'
    || c == '\U{A0}' || c == '\U{1680}'
    || '\U{2000}' <= c <= '\U{200A}'
    || c == '\U{2028}' || c == '\U{2029}'
    || c == '\U{202F}' || c == '\U{205F}' || c == '\U{3000}'
  }

  function TrimStart(s: string): (r: string)
    ensures |r| <= |s| && r == s[|s| - |r|..]
    ensures |r| > 0 ==> !IsWhitespace(r[0])
    ensures forall i :: 0 <= i < |s| - |r| ==> IsWhitespace(s[i])
  {
    if |s| > 0 && IsWhitespace(s[0]) then TrimStart(s[1..]) else s
  }

  function TrimEnd(s: string): (r: string)
    ensures |r| <= |s| && r == s[..|r|]
    ensures |r| > 0 ==> !IsWhitespace(r[|r| - 1])
    ensures forall i :: |r| <= i < |s| ==> IsWhitespace(s[i])
  {
    if |s| > 0 && IsWhitespace(s[|s| - 1]) then TrimEnd(s[..|s| - 1]) else s
  }

  /**
    `String.trim()`: the longest slice of `s` that neither starts nor ends
    with whitespace; everything cut off on either side is whitespace.
  */
  function Trim(s: string): (r: string)
    ensures exists i, j ::
              && 0 <= i <= j <= |s| && r == s[i..j]
              && (forall k :: 0 <= k < i ==> IsWhitespace(s[k]))
              && (forall k :: j <= k < |s| ==> IsWhitespace(s[k]))
    ensures |r| > 0 ==> !IsWhitespace(r[0]) && !IsWhitespace(r[|r| - 1])
  {
    var a := TrimStart(s);
    var r := TrimEnd(a);
    var i := |s| - |a|;
    var j := i + |r|;
    assert r == s[i..j];
    r
  }

  /** Trimming twice changes nothing more than trimming once. */
  lemma {:induction false} TrimIdempotent(s: string)
    ensures Trim(Trim(s)) == Trim(s)
  {
    var t := Trim(s);
    if |t| > 0 {
      assert TrimStart(t) == t;
      assert TrimEnd(t) == t;
    }
  }

  /** A string trims to the empty string exactly when it is entirely whitespace. */
  lemma {:induction false} TrimEmpty(s: string)
    ensures Trim(s) == "" <==> forall k :: 0 <= k < |s| ==> IsWhitespace(s[k])
  {
    var r := Trim(s);
    var i, j :| && 0 <= i <= j <= |s| && r == s[i..j]
                && (forall k :: 0 <= k < i ==> IsWhitespace(s[k]))
                && (forall k :: j <= k < |s| ==> IsWhitespace(s[k]));
    assert |r| > 0 ==> r[0] == s[i];
  }

  /** Kotlin's `List.indexOf`: the first position holding `x`, or -1. */
  function IndexOf(xs: seq<string>, x: string): (r: int)
    ensures -1 <= r < |xs|
    ensures r == -1 <==> x !in xs
    ensures r >= 0 ==> xs[r] == x && x !in xs[..r]
  {
    if |xs| == 0 then -1
    else if xs[0] == x then 0
    else
      var k := IndexOf(xs[1..], x);
      assert xs[1..][..if k < 0 then 0 else k] == xs[1..1 + if k < 0 then 0 else k];
      if k < 0 then -1 else k + 1
  }

  // ---------------------------------------------------------------------
  // UTF-16 code units

  /**
    A Kotlin `String` is a sequence of UTF-16 code units, and `Char` is one
    unit. A character of the Basic Multilingual Plane is one unit; any other
    is a high surrogate followed by a low surrogate. No surrogate is
    whitespace, so `trim()` cuts the same characters whichever view is taken.
  */
  function Utf16Units(c: char): (us: seq<int>)
    ensures |us| == 1 || |us| == 2
    ensures forall k :: 0 <= k < |us| ==> 0 <= us[k] < 0x1_0000
    ensures |us| == 1 <==> (c as int) < 0x1_0000
    ensures |us| == 1 ==> us[0] == c as int
    ensures |us| == 2 ==> 0xD800 <= us[0] < 0xDC00 && 0xDC00 <= us[1] < 0xE000
  {
    var n := c as int;
    if n < 0x1_0000 then [n]
    else [0xD800 + (n - 0x1_0000) / 0x400, 0xDC00 + (n - 0x1_0000) % 0x400]
  }

  /** The character a one-unit or surrogate-pair sequence stands for. */
  function Utf16Decode(us: seq<int>): int
    requires |us| == 1 || |us| == 2
  {
    if |us| == 1 then us[0] else 0x1_0000 + (us[0] - 0xD800) * 0x400 + (us[1] - 0xDC00)
  }

  /** Encoding a character and decoding the units gives the character back. */
  lemma {:induction false} Utf16RoundTrip(c: char)
    ensures Utf16Decode(Utf16Units(c)) == c as int
  {
    var n := c as int;
    if n >= 0x1_0000 {
      var q, r := (n - 0x1_0000) / 0x400, (n - 0x1_0000) % 0x400;
      assert n - 0x1_0000 == q * 0x400 + r;
    }
  }

  /** Kotlin's `s[0]` on a non-empty string: its first UTF-16 code unit. */
  function FirstUnit(s: string): (u: int)
    requires |s| > 0
    ensures 0 <= u < 0x1_0000
    ensures (s[0] as int) < 0x1_0000 ==> u == s[0] as int
    ensures (s[0] as int) >= 0x1_0000 ==> 0xD800 <= u < 0xDC00
  {
    Utf16Units(s[0])[0]
  }
}
